=== FILE: README.md ===
# Promptforge purchase core in Dafny

Promptforge is a Flask shop that sells downloadable prompt files. This project
models the purchase logic in `app.py`. Each piece is a pure function over
immutable values:

- the session cart and its five editing routes;
- coupon normalisation (`strip().upper()`), the coupon lookup shared by both
  checkout routes, `validate_coupon` and the admin upsert `create_coupon`;
- integer pricing: the tally of the cart into line items, the discounted unit
  price `int(price * (100 - d) / 100)`, the checkout total and the cart page's
  undiscounted total;
- fulfilment in `success`, which turns every cart entry into a purchase record;
- the `orders` status view and the `download` gate with its
  once-before-expiry rule;
- cart persistence: `logout` saves the session cart to the user record and
  `login` restores it.

The model represents the system's state as follows:

- The cart is a sequence of product ids, and a product's quantity is its
  multiplicity. The session slot is an `Option`, because the routes tell a
  missing `"cart"` key apart from an empty list.
- The product catalog and the coupon collection are maps.
- The purchase ledger and the users collection are sequences in insertion
  order. `find_one` is the first match.
- Prices are integer euro cents.
- Time is an integer count of microseconds.

Every route returns its outcome as a datatype in place of a redirect, flash
message or template: `Result`, `Gate`, `LoginResult`, `Fulfilment`.

Modules, one file each:

- `Outcomes`: `Option` and `Result`.
- `Store`: products and the catalog.
- `Cart`: the cart routes.
- `Coupons`: normalisation, the coupon collection, `create_coupon`.
- `Pricing`: unit prices, the tally, line items, totals and the cart page.
- `Checkout`: `checkout_cart`, `checkout`, `validate_coupon` and worked examples.
- `Ledger`: `success`, `orders`, `download` and the re-purchase correction.
- `Accounts`: login and logout.

Two readings of the code are worth knowing:

- `success` receives no evidence of payment. Any logged-in session with a
  non-empty cart that reaches it is fulfilled, and the model has no payment
  input either.
- `success` also ignores the `file` argument of its URL. The card checkout of
  one product puts the product's file there (app.py:414), yet only the session
  cart is fulfilled; see "## Findings".
- `login` looks the email up exactly as typed, while `signup` stores it
  lower-cased (app.py:128). A capitalised spelling is therefore "not found"
  (`Accounts.LoginEmailTakenVerbatim`).

## Model

| member | source | states |
|---|---|---|
| Cart.AddToCart | app.py:245-249 | creates the slot if missing; the cart grows by one, the id goes last, every earlier entry stays where it was |
| Cart.IncreaseQuantity | app.py:259-264 | the product's quantity rises by exactly one and every other quantity is unchanged |
| Cart.AddAndIncreaseAgree | app.py:245-264 | `add_to_cart` and `increase_quantity` produce the same session cart |
| Cart.RemoveAt | app.py:251-257 | for an index in range, removes exactly that entry and keeps the order of the others; out of range, the cart is unchanged |
| Cart.RemoveFromCart | app.py:251-257 | only an existing slot and an index in range change the session; the entry at that index is removed and the entries before and after it keep their positions and order |
| Cart.RemoveFirst | app.py:266-272 | `list.remove` drops the first occurrence only: the result is removal at the first index, and the multiset loses one copy of p |
| Cart.DecreaseQuantity | app.py:266-272 | the first occurrence of p is the one removed, so p's quantity drops by exactly one and every other quantity is kept; an absent p leaves the session as it was |
| Cart.RemoveAll | app.py:277 | the filtered cart holds no p, keeps every other quantity, shrinks by p's count, and is the input when p is absent |
| Cart.RemoveAllDistributes | app.py:277 | the filter distributes over concatenation, so the kept entries keep their relative order |
| Cart.RemoveAllIdempotent | app.py:277 | filtering twice equals filtering once |
| Cart.RemoveAllFromCart | app.py:274-279 | always writes the slot; no p is left, every other quantity is kept, and the kept entries stay in their old relative order (filtering any split of the cart part by part gives the result) |
| Cart.RemoveAllSplits | app.py:277 | the filtered cart is the filtered parts of any split of the cart, joined |
| Cart.RemoveAllFromCartIdempotent | app.py:274-279 | running `remove_all_from_cart` twice leaves the session as running it once |
| Coupons.Strip | app.py:311 | the result is the middle of the input with only whitespace cut from either end; it has no whitespace at either end, and it is empty iff the input is all whitespace |
| Coupons.Upper | app.py:311 | same length; each lower-case ASCII letter becomes its capital, 32 code points lower; every other character is kept |
| Coupons.Normalize | app.py:311 | the normalised code is empty iff the input is blank; it has no whitespace at either end and no lower-case letter |
| Coupons.NormalizeKeepsMiddle | app.py:311 | the code is the typed text after its leading whitespace, capitalised character by character, and only whitespace follows it |
| Coupons.NormalizeIgnoresCase | app.py:311 | two spellings that differ only in the case of ASCII letters normalise to the same code |
| Coupons.NormalizeIgnoresPadding | app.py:311 | whitespace added before or after a code does not change its normalised form |
| Coupons.NormalizeIdempotent | app.py:640 | normalising a code a second time changes nothing, so stored codes are already in the form checkout looks up |
| Coupons.Lookup | app.py:314-316 | an unknown code gives no coupon; a known one gives its stored discount, or 0 when the record has none; on a collection `create_coupon` built, the discount is in (0, 100] |
| Coupons.Resolve | app.py:311-319 | a blank code means discount 0, a known code gives its discount, and a non-empty unknown code is refused |
| Coupons.QuotedDiscount | app.py:361-371 | `validate_coupon` never refuses a code: an unknown one is quoted at 0 |
| Coupons.QuoteAgreesWithCheckout | app.py:368-371 | on a well-formed collection the quoted discount equals the checkout discount for every accepted code, and is 0 for every refused one |
| Coupons.CreateCoupon | app.py:639-648 | refused iff the code is blank or the discount is outside (0, 100]; otherwise the collection gains exactly the normalised code, its record holds the new discount, and no other record changes |
| Coupons.CreateCouponKeepsWellFormed | app.py:640-646 | every upsert keeps every stored code non-empty and normalised with a discount in (0, 100] |
| Coupons.CreateThenResolve | app.py:646 | after an upsert, every spelling that normalises to the code resolves at checkout to the new discount |
| Coupons.CreateCouponIdempotent | app.py:646 | saving the same coupon twice leaves the collection as saving it once: one record per code |
| Pricing.DiscountedUnit | app.py:332 | zero discount keeps the price; for a price that is not negative and a discount in [0, 100] the unit price is the floor of the exact discounted price and lies between 0 and the original price |
| Pricing.UnitBranchesAgree | app.py:330-332 | the cart's `if discount:` and the single checkout's `if discount > 0:` give the same unit price for every discount that is not negative; for a negative discount the cart checkout still applies the formula while the single checkout charges the list price |
| Pricing.BumpCounts | app.py:326 | bumping a new id appends it with quantity 1; bumping a known id keeps the order; only that id's quantity rises, by one |
| Pricing.Tally | app.py:324-326 | the tally lists every cart id exactly once and nothing else, with the id's multiplicity as its quantity |
| Pricing.TallyFollowsFirstAppearance | app.py:324-326 | the ids of the tally come in the order of their first occurrence in the cart, as the keys of an insertion-ordered dict do |
| Pricing.BumpExtendsTally | app.py:325-326 | one loop step turns a tally of a cart into a tally of that cart with the id appended |
| Pricing.LinesPriced | app.py:327-341 | every line is for a tallied id whose product exists, carries its title and the cart unit price; every such id has a line |
| Pricing.LinesQuantities | app.py:327-341 | on a tally without repeats, no id has two lines and each line carries its tallied quantity |
| Pricing.CheckoutLinesDescribeCart | app.py:321-341 | the line items have distinct ids; an id has a line iff it is in the cart and its product exists; each line is at the cart unit price with the id's multiplicity as quantity |
| Pricing.BumpAddsOneUnit | app.py:326-333 | one more cart entry adds exactly its discounted unit price to the line total |
| Pricing.CheckoutTotalIsEntrySum | app.py:321-341 | the grouped total, unit price times quantity over the line items, equals the entry-by-entry sum of discounted unit prices |
| Pricing.EntrySumWithoutDiscount | app.py:289-297 | with no discount, the per-entry sum is the cart page's total |
| Pricing.DiscountBoundsTotal | app.py:330-333 | with non-negative prices and a discount in [0, 100], the checkout total lies between 0 and the cart page's total |
| Pricing.AddRowKeepsDescription | app.py:291-297 | one loop step of the cart page keeps one row per distinct existing id, with its product and its multiplicity so far |
| Pricing.RowsOfDescribe | app.py:288-297 | the rows built from any cart prefix describe exactly that prefix |
| Pricing.CartPageDescribesCart | app.py:298-300 | the finished rows describe the whole cart, and the cart page total equals the undiscounted checkout total |
| Pricing.CartPage | app.py:282-300 | the page total is the undiscounted sum over existing entries and equals the checkout total without a coupon; rows are distinct, exist, carry their product and multiplicity, and cover every existing cart id |
| Checkout.CheckoutCart | app.py:302-357 | refused as empty iff the cart is empty, then as an invalid coupon iff the code is non-empty and unknown, then for PayPal; a non-empty cart with an accepted code and any other payment method always opens a Stripe session, whose line items are the grouped cart lines and whose total is the per-entry discounted sum |
| Checkout.CheckoutProduct | app.py:378-419 | 404 iff the product is missing; GET shows the form; an unknown code is refused before the payment method is read; PayPal is passed on; any other method with an accepted code always opens a Stripe session for one unit at the single-checkout price, with, on a coupon table `create_coupon` built and a non-negative price, a total between 0 and the list price, and with the product's file in the success URL |
| Checkout.ValidateCoupon | app.py:359-374 | not valid iff the product is missing; otherwise the quote is the table's discount and the formula applied to it, and an unknown code gives the list price |
| Checkout.QuoteMatchesCharge | app.py:359-398 | on a well-formed collection, the quoted final price for an accepted code is what both checkouts charge per unit; a refused code is quoted at list price |
| Checkout.TenPercentScenario | app.py:304-341 | cart A, B, A with " save10 " gives lines A at 900 times 2 and B at 450 times 1, total 2250 |
| Checkout.CardPurchaseGrantsNothing | app.py:403-417 | a card purchase of one product opens a Stripe session naming its file, yet `success` with no cart or an empty cart records nothing, while fulfilling the product records it |
| Checkout.UnknownCodeScenario | app.py:313-319 | an unknown code aborts the cart checkout with the invalid-coupon outcome |
| Ledger.Purchasable | app.py:495-498 | the entries kept for fulfilment all have an existing product |
| Ledger.PurchasableCounts | app.py:495-498 | an existing product keeps its full multiplicity and a missing one is dropped |
| Ledger.GrantsFollowCart | app.py:495-507 | the i-th new record is the fresh record for the i-th purchasable entry, one per entry |
| Ledger.InvoicesFollowCart | app.py:495-508 | the i-th invoice is for the i-th purchasable entry, at its catalog price |
| Ledger.Success | app.py:487-514 | an empty cart changes nothing; otherwise earlier records stay as they were, the cart becomes empty, and the page shows the first new file |
| Ledger.SuccessFollowsCart | app.py:494-509 | `success` appends exactly one record and one invoice per purchasable cart entry, in cart order |
| Ledger.FulfilProduct | app.py:474-483 | fulfilling one bought product appends one fresh record for its file and one invoice at its catalog price, leaves the cart alone, and makes the file downloadable at once; an unknown product fulfils nothing |
| Ledger.EntitlementWindow | app.py:500-507 | a fresh record is not downloaded and expires seven days after creation; it reads Bereit up to then and Abgelaufen after, and the gate serves it exactly while it reads Bereit |
| Ledger.SuccessReloadGrantsNothing | app.py:490-492 | after a fulfilment the cart is empty, so a second visit adds no records |
| Ledger.DuplicateEntryGrantsTwice | app.py:495-509 | a product in the cart twice yields two records: fulfilment is per entry |
| Ledger.StatusOf | app.py:522-532 | Abgelaufen iff expired; Bereits heruntergeladen iff not expired and downloaded; Bereit iff neither |
| Ledger.UserPurchases | app.py:519 | the history holds exactly the user's records |
| Ledger.UserPurchasesCounts | app.py:519 | each of the user's records appears in the history as often as in the ledger, and no other record appears |
| Ledger.UserPurchasesAppend | app.py:519 | the history keeps ledger order: the user's records of an earlier part of the ledger come first |
| Ledger.Orders | app.py:516-533 | one row per user record in ledger order; Abgelaufen if expired, else Bereits heruntergeladen if downloaded, else Bereit; downloadable iff neither expired nor downloaded |
| Ledger.FindFirst | app.py:551-554 | no match means no record for user and file; otherwise the earliest matching record |
| Ledger.Download | app.py:548-571 | no record gives 403; then expired is refused whatever the flag; then downloaded is refused; otherwise the file is served and only that record's flag becomes true |
| Ledger.GateAgreesWithOrders | app.py:523-570 | for the record the gate inspects, served iff the page says Bereit, expired iff Abgelaufen, already downloaded iff Bereits heruntergeladen; a missing expiry counts as unexpired on both sides |
| Ledger.FindFirstIgnoresFlags | app.py:551-554 | changing download flags does not change which record the gate finds |
| Ledger.ServedAtMostOnce | app.py:565-570 | after a download is served, a later request for the same file is never served, whatever success and download requests come in between |
| Ledger.KeptFindFirst | app.py:551-554 | when records keep their owner and file and new ones are only appended, the gate still finds the same first record |
| Ledger.ExpiredScenario | app.py:560-562 | bought at T, a request at T plus 8 days is refused as expired |
| Ledger.OnceScenario | app.py:565-571 | bought at T, served at T plus 1 hour, refused as downloaded at T plus 2 hours |
| Ledger.FindReady | app.py:551-554 | finds a matching record that reads Bereit iff one exists |
| Ledger.DownloadAnyReady | app.py:548-571 | served iff some record of the user for the file reads Bereit, flagging only such a record; 403 iff there is no record at all |
| Ledger.AnyReadyAgreesWithOrders | app.py:516-533 | the corrected gate serves a file iff the orders page shows a downloadable row for it |
| Ledger.RepurchaseAfterExpiryRefused | app.py:551-562 | an expired first purchase plus a fresh re-purchase: the page offers the new one, the gate refuses with expired, the corrected gate serves |
| Ledger.ApplyKeeps | app.py:500-570 | no single success or download request rewrites, removes or un-flags an existing record |
| Ledger.RunKeeps | app.py:500-570 | no sequence of requests resets a downloaded flag or changes an existing record's owner, file, creation time or expiry |
| Accounts.FindByEmail | app.py:155 | no match iff no record has the email; otherwise the earliest record with it |
| Accounts.SaveCart | app.py:175-176 | only the first record with the id gets the cart; no other field or record changes |
| Accounts.Login | app.py:147-170 | captcha, then email, then verification, then password, in that order; a failure leaves the session alone; success records the user, and a stored cart replaces the session cart while a record without one keeps it |
| Accounts.LogoutUser | app.py:171-179 | an anonymous session changes nothing; otherwise a session cart is written to the first record with the user's id, an absent one leaves the stored carts alone, and the session ends with no user and no cart |
| Accounts.LogoutThenLoginRestoresCart | app.py:165-177 | with unique ids and emails, logging out and back in returns the session's cart, or the earlier stored cart if the session had none |
| Accounts.FailedLoginKeepsSession | app.py:151-169 | every failed login leaves the session, and a guest's cart, untouched |
| Accounts.GuestCartReplaced | app.py:165-166 | a stored cart overwrites a guest's cart at login |
| Accounts.LoginEmailTakenVerbatim | app.py:155 | a capitalised spelling of a registered address is not found |

## Left out

- HTTP plumbing is not modelled:
  - Flask routing, templates, flash messages and redirects. Outcomes are datatypes.
  - `login_required`, except for `logout`, where it decides whether anything happens.
  - The admin role check.
  - CSRF protection and rate limits.
- MongoDB and ObjectId parsing. In the source, a malformed id raises an error. Here it is simply an absent product.
- Natural order. MongoDB does not specify the order in which `find` and `find_one` return records. The model assumes insertion order, which decides the first match in `find_one` and the row order of the orders page.
- Stripe and PayPal calls. `paypal_checkout` and `paypal_execute` (app.py:421-485) are provider glue. They charge the undiscounted price and record a single purchase.
- Library code with I/O or cryptography is abstracted:
  - Email and PDF invoices: an `Invoice` value stands for the arguments of each call.
  - reCAPTCHA: a boolean.
  - bcrypt: a stored secret compared by equality.
  - itsdangerous tokens: not modelled.
- Admin product upload and edit (app.py:574-634), with their float price conversion.
- `create_coupon` converts the discount text with `int(...)`, which raises on non-numeric input. The model takes the integer.
- Concurrency. The download gate checks and then sets in two database steps. The model runs requests one at a time and claims nothing about races.
- Clock readings. Each request reads the clock once (`now`). In the source, `success` reads the clock three times per record: for the timestamp, for the expiry and for the invoice. The gate's default for a missing expiry is modelled as a second reading, `fallbackNow`.
- Coupons.Upper: handles ASCII letters only. Python's `str.upper()` also maps other scripts, for example `ß` to `SS`. Codes are assumed to be ASCII.
- Pricing.DiscountedUnit: models `int(a / 100)` as exact division truncated toward zero. Python computes it in floating point, which can differ by one for very large prices.
- Failures of the storage and mail calls. In `success` (app.py:500-512), an exception from `insert_one` or `send_invoice_email` part-way through the loop leaves the records already inserted while the cart is not emptied, so a reload grants them again. In `download` (app.py:570-571), the flag is written before `send_file`, so a file missing from disk still uses up the one download. The model treats every such call as succeeding.
- static/script.js: browser UI.

## Findings

| source | as written | input that shows it | evidently intended | confidence | as-written member | corrected member |
|---|---|---|---|---|---|---|
| app.py:551-567 | `download` inspects only the first purchase record for the user and file. If that one has expired or was already downloaded, the request is refused, even when a later re-purchase of the same file is ready | A user buys `f` at T. At T + 8 days they buy `f` again. At T + 8 days + 1 hour, `/orders` shows the second record as Bereit, but `/download/f` says the link has expired | a paid, ready record lets the file download, as the orders page promises | high, not executed | Ledger.RepurchaseAfterExpiryRefused | Ledger.DownloadAnyReady |
| app.py:403-417 | the card checkout of one product sends the customer to `success` with the product's file in the URL, but `success` (app.py:487-514) reads only the session cart. The paid product is never recorded, and a cart that happens to be in the session is granted instead | A user with an empty cart buys product A by card at full price. Stripe returns them to `/success?file=a.pdf`, which records nothing, so `/orders` stays empty and `/download/a.pdf` gives 403 | a card purchase of one product records that product, as `paypal_execute` does for PayPal (app.py:474-483) | high, not executed | Checkout.CardPurchaseGrantsNothing | Ledger.FulfilProduct |

=== FILE: accounts.dfy ===
/** Cart persistence across sessions (app.py:147-179): `login` restores the cart
    stored on the user record, and `logout` stores the session's cart there and
    drops it from the session. The users collection is a sequence in insertion
    order; MongoDB leaves the order `find_one` scans in unspecified, and the
    model assumes insertion order. Password hashing is
    abstracted: a record holds its secret and the check is equality. */
module Accounts {
  import opened Outcomes
  import opened Store
  import opened Cart

  /** A user record as far as the cart is concerned. */
  datatype Account = Account(id: UserId, email: string, password: string, verified: bool, cart: Option<Cart>)

  type Users = seq<Account>

  /** The parts of the Flask session these routes touch: the logged-in user
      and the cart slot. */
  datatype Session = Session(user: Option<UserId>, cart: Option<Cart>)

  /** `users.find_one({"email": email})`: the first record with that email. */
  function FindByEmail(users: Users, email: string): (r: Option<nat>)
    ensures r.None? <==> forall i :: 0 <= i < |users| ==> users[i].email != email
    ensures r.Some? ==> r.value < |users| && users[r.value].email == email
    ensures r.Some? ==> forall j :: 0 <= j < r.value ==> users[j].email != email
  {
    if users == [] then None
    else if users[0].email == email then Some(0)
    else
      match FindByEmail(users[1..], email)
      case None => None
      case Some(k) => Some(k + 1)
  }

  /** `users.update_one({"_id": id}, {"$set": {"cart": cart}})`: the first record
      with that id gets the cart; every other record, and every other field, is
      left alone, and an unknown id changes nothing. */
  function SaveCart(users: Users, id: UserId, cart: Cart): (r: Users)
    ensures |r| == |users|
    ensures forall i :: 0 <= i < |users| ==> r[i].(cart := users[i].cart) == users[i]
    ensures forall i :: 0 <= i < |users| && users[i].id == id && (forall j :: 0 <= j < i ==> users[j].id != id) ==>
      r[i].cart == Some(cart)
    ensures forall i :: 0 <= i < |users| && (users[i].id != id || exists j :: 0 <= j < i && users[j].id == id) ==>
      r[i] == users[i]
  {
    if users == [] then []
    else if users[0].id == id then [users[0].(cart := Some(cart))] + users[1..]
    else [users[0]] + SaveCart(users[1..], id, cart)
  }

  datatype LoginOutcome =
    | CaptchaFailed   // "Bitte reCAPTCHA bestätigen."
    | UnknownEmail    // "E-Mail nicht gefunden."
    | Unverified      // the unverified-account page
    | WrongPassword   // "Falsches Passwort."
    | LoggedIn

  datatype LoginResult = LoginResult(outcome: LoginOutcome, session: Session)

  /** `login` (POST): the captcha is checked first, then the email is looked up
      exactly as typed, then verification, then the password. Only a successful
      login touches the session: it records the user and, when the record holds
      a cart, that cart replaces whatever the session held; a record without a
      cart leaves the session's cart as it was. */
  function Login(sess: Session, users: Users, email: string, password: string, captchaOk: bool): (r: LoginResult)
    ensures r.outcome == CaptchaFailed <==> !captchaOk
    ensures r.outcome == UnknownEmail <==> captchaOk && FindByEmail(users, email).None?
    ensures r.outcome == Unverified <==>
      captchaOk && FindByEmail(users, email).Some? && !users[FindByEmail(users, email).value].verified
    ensures r.outcome == WrongPassword <==>
      && captchaOk && FindByEmail(users, email).Some?
      && users[FindByEmail(users, email).value].verified
      && users[FindByEmail(users, email).value].password != password
    ensures r.outcome != LoggedIn ==> r.session == sess
    ensures r.outcome == LoggedIn ==>
      var account := users[FindByEmail(users, email).value];
      && r.session.user == Some(account.id)
      && r.session.cart == (if account.cart.Some? then account.cart else sess.cart)
  {
    if !captchaOk then LoginResult(CaptchaFailed, sess)
    else
      match FindByEmail(users, email)
      case None => LoginResult(UnknownEmail, sess)
      case Some(i) =>
        var account := users[i];
        if !account.verified then LoginResult(Unverified, sess)
        else if account.password != password then LoginResult(WrongPassword, sess)
        else
          var cart := if account.cart.Some? then account.cart else sess.cart;
          LoginResult(LoggedIn, Session(Some(account.id), cart))
  }

  datatype Logout = Logout(session: Session, users: Users)

  /** `logout`: behind `login_required`, an anonymous session changes nothing.
      Otherwise a cart the session holds is written to the user's record (a
      session without a cart leaves the stored one in place), and the session
      ends with neither user nor cart. */
  function LogoutUser(sess: Session, users: Users): (r: Logout)
    ensures sess.user.None? ==> r == Logout(sess, users)
    ensures sess.user.Some? ==> r.session == Session(None, None)
    ensures sess.user.Some? && sess.cart.None? ==> r.users == users
    ensures sess.user.Some? && sess.cart.Some? ==> r.users == SaveCart(users, sess.user.value, sess.cart.value)
    ensures |r.users| == |users|
    ensures forall i :: 0 <= i < |users| ==> r.users[i].(cart := users[i].cart) == users[i]
  {
    match sess.user
    case None => Logout(sess, users)
    case Some(id) =>
      var saved := if sess.cart.Some? then SaveCart(users, id, sess.cart.value) else users;
      Logout(Session(None, None), saved)
  }

  /** No two records share an id or an email. */
  predicate Unique(users: Users) {
    forall i, j :: 0 <= i < j < |users| ==> users[i].id != users[j].id && users[i].email != users[j].email
  }

  /** Logging out and back in gives the same cart back: the one the session
      held, or, if it held none, the one stored earlier (or none at all). */
  lemma LogoutThenLoginRestoresCart(sess: Session, users: Users, k: nat)
    requires Unique(users)
    requires k < |users| && users[k].verified
    requires sess.user == Some(users[k].id)
    ensures var out := LogoutUser(sess, users);
      var back := Login(out.session, out.users, users[k].email, users[k].password, true);
      && back.outcome == LoggedIn
      && back.session.user == sess.user
      && back.session.cart == (if sess.cart.Some? then sess.cart else users[k].cart)
  {
    var out := LogoutUser(sess, users);
    FindUnique(users, k);
    assert forall j :: 0 <= j < |users| ==>
      (out.users[j].email == users[j].email && out.users[j].verified == users[j].verified
       && out.users[j].password == users[j].password && out.users[j].id == users[j].id);
    assert Unique(out.users);
    FindUnique(out.users, k);
    if sess.cart.Some? {
      assert forall j :: 0 <= j < k ==> users[j].id != users[k].id;
      assert out.users[k].cart == sess.cart;
    }
  }

  /** With unique emails, looking a record's email up finds that record. */
  lemma FindUnique(users: Users, k: nat)
    requires Unique(users) && k < |users|
    ensures FindByEmail(users, users[k].email) == Some(k)
  {
  }

  /** A failed login leaves the session, and with it a guest's cart, untouched. */
  lemma FailedLoginKeepsSession(sess: Session, users: Users, email: string, password: string, captchaOk: bool)
    requires Login(sess, users, email, password, captchaOk).outcome != LoggedIn
    ensures Login(sess, users, email, password, captchaOk).session == sess
    ensures Login(sess, users, email, password, captchaOk).outcome in {CaptchaFailed, UnknownEmail, Unverified, WrongPassword}
  {
  }

  /** A guest's cart is discarded when the account has a stored cart. */
  lemma GuestCartReplaced(guest: Cart, stored: Cart)
    ensures var users := [Account("u1", "a@b.de", "pw", true, Some(stored))];
      Login(Session(None, Some(guest)), users, "a@b.de", "pw", true).session == Session(Some("u1"), Some(stored))
  {
    var users := [Account("u1", "a@b.de", "pw", true, Some(stored))];
    assert FindByEmail(users, "a@b.de") == Some(0);
  }

  /** Login compares the email exactly as typed: a capitalised spelling of a
      registered address is not found. */
  lemma LoginEmailTakenVerbatim()
    ensures var users := [Account("u1", "a@b.de", "pw", true, None)];
      Login(Session(None, None), users, "A@b.de", "pw", true).outcome == UnknownEmail
  {
    var users := [Account("u1", "a@b.de", "pw", true, None)];
    assert users[0].email != "A@b.de";
    assert FindByEmail(users[1..], "A@b.de") == None;
  }
}

=== FILE: cart.dfy ===
/** The session cart (app.py:245-279): a sequence of product ids in insertion
    order, where a product's quantity is its multiplicity. The session may hold
    no cart at all, which every reader treats as the empty cart; the writers
    differ in whether they create the slot, so the slot is an `Option`. */
module Cart {
  import opened Outcomes
  import opened Store

  type Cart = seq<ProductId>

  /** Quantity of `p` in the cart. */
  function Count(c: Cart, p: ProductId): nat {
    multiset(c)[p]
  }

  /** The cart a session holds; a missing slot reads as empty (`session.get("cart", [])`). */
  function Contents(slot: Option<Cart>): Cart {
    slot.GetOr([])
  }

  /** `list.append`: the new id goes last and every earlier entry stays where it was. */
  function Append(c: Cart, p: ProductId): (r: Cart)
    ensures |r| == |c| + 1 && r[|c|] == p
    ensures forall i :: 0 <= i < |c| ==> r[i] == c[i]
    ensures Count(r, p) == Count(c, p) + 1
    ensures forall q :: q != p ==> Count(r, q) == Count(c, q)
  {
    c + [p]
  }

  /** `list.pop(i)` behind the route's bounds guard: removes exactly the entry at
      `i` and keeps the others in order; an index out of range changes nothing. */
  function RemoveAt(c: Cart, i: int): (r: Cart)
    ensures 0 <= i < |c| ==> |r| == |c| - 1
    ensures 0 <= i < |c| ==> forall j :: 0 <= j < i ==> r[j] == c[j]
    ensures 0 <= i < |c| ==> forall j :: i <= j < |r| ==> r[j] == c[j + 1]
    ensures 0 <= i < |c| ==> multiset(r) == multiset(c) - multiset{c[i]}
    ensures !(0 <= i < |c|) ==> r == c
  {
    if 0 <= i < |c| then
      assert c == c[..i] + [c[i]] + c[i + 1..];
      c[..i] + c[i + 1..]
    else
      c
  }

  /** Index of the first occurrence of `p`. */
  function FirstIndex(c: Cart, p: ProductId): (i: nat)
    requires p in c
    ensures i < |c| && c[i] == p
    ensures p !in c[..i]
  {
    if c[0] == p then 0
    else
      assert c[1..][..FirstIndex(c[1..], p)] == c[1..FirstIndex(c[1..], p) + 1];
      1 + FirstIndex(c[1..], p)
  }

  /** `list.remove(p)` behind `p in cart`: drops the first occurrence of `p`
      only, so p's quantity falls by one and every other quantity is kept. */
  function RemoveFirst(c: Cart, p: ProductId): (r: Cart)
    ensures p in c ==> r == RemoveAt(c, FirstIndex(c, p))
    ensures p !in c ==> r == c
    ensures multiset(r) == multiset(c) - multiset{p}
  {
    if p in c then RemoveAt(c, FirstIndex(c, p)) else c
  }

  /** `[pid for pid in cart if pid != p]`. */
  function RemoveAll(c: Cart, p: ProductId): (r: Cart)
    ensures p !in r
    ensures forall q :: q != p ==> Count(r, q) == Count(c, q)
    ensures |r| == |c| - Count(c, p)
    ensures p !in c ==> r == c
  {
    if c == [] then []
    else
      assert c == [c[0]] + c[1..];
      var kept: Cart := if c[0] == p then [] else [c[0]];
      var rest := RemoveAll(c[1..], p);
      assert multiset(kept + rest) == multiset(kept) + multiset(rest);
      assert multiset(c) == multiset{c[0]} + multiset(c[1..]);
      assert forall q :: q != p ==> Count(kept + rest, q) == Count(kept, q) + Count(rest, q) == Count(c, q);
      kept + rest
  }

  /** The filter keeps the relative order of what it keeps: it distributes over
      concatenation, so it acts on each entry independently and in place. */
  lemma {:induction false} RemoveAllDistributes(a: Cart, b: Cart, p: ProductId)
    ensures RemoveAll(a + b, p) == RemoveAll(a, p) + RemoveAll(b, p)
  {
    if a == [] {
      assert a + b == b;
    } else {
      assert (a + b)[0] == a[0];
      assert (a + b)[1..] == a[1..] + b;
      RemoveAllDistributes(a[1..], b, p);
    }
  }

  /** Removing every occurrence a second time changes nothing. */
  lemma RemoveAllIdempotent(c: Cart, p: ProductId)
    ensures RemoveAll(RemoveAll(c, p), p) == RemoveAll(c, p)
  {
  }

  // ---- the session-level routes ----

  /** `add_to_cart` (app.py:245-249): creates the slot if needed and appends. */
  function AddToCart(slot: Option<Cart>, p: ProductId): (r: Option<Cart>)
    ensures r.Some? && |r.value| == |Contents(slot)| + 1
    ensures r.value[..|Contents(slot)|] == Contents(slot) && r.value[|Contents(slot)|] == p
  {
    Some(Append(Contents(slot), p))
  }

  /** `increase_quantity` (app.py:259-264): the same append under another route. */
  function IncreaseQuantity(slot: Option<Cart>, p: ProductId): (r: Option<Cart>)
    ensures r.Some? && Count(r.value, p) == Count(Contents(slot), p) + 1
    ensures forall q :: q != p ==> Count(r.value, q) == Count(Contents(slot), q)
  {
    Some(Append(Contents(slot), p))
  }

  /** The two routes are one operation. */
  lemma AddAndIncreaseAgree(slot: Option<Cart>, p: ProductId)
    ensures AddToCart(slot, p) == IncreaseQuantity(slot, p)
  {
  }

  /** `remove_from_cart` (app.py:251-257): only an existing slot and an index in
      range remove anything; otherwise the session is left exactly as it was. */
  function RemoveFromCart(slot: Option<Cart>, i: int): (r: Option<Cart>)
    ensures slot.Some? && 0 <= i < |slot.value| ==>
      r.Some? && |r.value| == |slot.value| - 1 && multiset(r.value) == multiset(slot.value) - multiset{slot.value[i]}
    ensures slot.Some? && 0 <= i < |slot.value| ==>
      r.value[..i] == slot.value[..i] && r.value[i..] == slot.value[i + 1..]
    ensures !(slot.Some? && 0 <= i < |slot.value|) ==> r == slot
  {
    if slot.Some? && 0 <= i < |slot.value| then Some(RemoveAt(slot.value, i)) else slot
  }

  /** `decrease_quantity` (app.py:266-272): p's quantity drops by exactly one,
      every other quantity is kept, and an absent p is a no-op. */
  function DecreaseQuantity(slot: Option<Cart>, p: ProductId): (r: Option<Cart>)
    ensures p in Contents(slot) ==> r.Some? && Count(r.value, p) == Count(Contents(slot), p) - 1
    ensures forall q :: q != p ==> Count(Contents(r), q) == Count(Contents(slot), q)
    ensures p in Contents(slot) ==> r.value == RemoveAt(Contents(slot), FirstIndex(Contents(slot), p))
    ensures p !in Contents(slot) ==> r == slot
  {
    if slot.Some? && p in slot.value then Some(RemoveFirst(slot.value, p)) else slot
  }

  /** `remove_all_from_cart` (app.py:274-279): always writes the slot, with no
      occurrence of p left, every other quantity kept, and the kept entries in
      their old relative order: filtering any split of the cart part by part
      gives the same result. */
  function RemoveAllFromCart(slot: Option<Cart>, p: ProductId): (r: Option<Cart>)
    ensures r.Some? && p !in r.value
    ensures forall q :: q != p ==> Count(r.value, q) == Count(Contents(slot), q)
    ensures forall a, b :: Contents(slot) == a + b ==> r.value == RemoveAll(a, p) + RemoveAll(b, p)
  {
    RemoveAllSplits(Contents(slot), p);
    Some(RemoveAll(Contents(slot), p))
  }

  /** The filter of a cart is the filters of any two parts it splits into, joined. */
  lemma RemoveAllSplits(c: Cart, p: ProductId)
    ensures forall a, b :: c == a + b ==> RemoveAll(c, p) == RemoveAll(a, p) + RemoveAll(b, p)
  {
    forall a, b | c == a + b
      ensures RemoveAll(c, p) == RemoveAll(a, p) + RemoveAll(b, p)
    {
      RemoveAllDistributes(a, b, p);
    }
  }

  /** Running `remove_all_from_cart` twice leaves the same session as running it once. */
  lemma RemoveAllFromCartIdempotent(slot: Option<Cart>, p: ProductId)
    ensures RemoveAllFromCart(RemoveAllFromCart(slot, p), p) == RemoveAllFromCart(slot, p)
  {
  }
}

=== FILE: checkout.dfy ===
/** The routes that price a purchase and hand it to a payment provider, or
    quote a price: `checkout_cart` (app.py:302-357), `validate_coupon`
    (app.py:359-374) and `checkout` for one product (app.py:378-419). None of
    them writes the session or the purchase ledger, so a refusal leaves the cart
    as it was and creates no entitlement; the result says which provider session
    would be opened, with which line items. */
module Checkout {
  import opened Outcomes
  import opened Store
  import opened Cart
  import opened Coupons
  import opened Pricing
  import Ledger

  /** Why a route refused to start a payment. */
  datatype CheckoutError =
    | EmptyCart          // "Dein Warenkorb ist leer."
    | InvalidCoupon      // "Ungültiger Rabattcode."
    | PayPalUnavailable  // carts cannot be paid with PayPal yet
    | ProductNotFound    // abort(404)

  /** What a route hands on when it does not refuse. */
  datatype Checkout =
    | StripeSession(lines: seq<LineItem>, total: int, successFile: Option<FileName>)
    | PayPalRedirect(productId: ProductId)
    | ShowForm

  /** The posted checkout form; a missing field reads as the empty string. */
  datatype Form = Form(coupon: string, paymentMethod: string)

  datatype Request = Get | Post(form: Form)

  /** `checkout_cart`: an empty cart is refused first, then an unknown coupon,
      then PayPal; otherwise a Stripe session is opened for the tallied line
      items, whose total is the per-entry sum of discounted unit prices. */
  function CheckoutCart(catalog: Catalog, coupons: CouponTable, slot: Option<Cart>, form: Form)
    : (r: Result<Checkout, CheckoutError>)
    ensures r == Err(EmptyCart) <==> Contents(slot) == []
    ensures r == Err(InvalidCoupon) <==> Contents(slot) != [] && Resolve(coupons, form.coupon).None?
    ensures r == Err(PayPalUnavailable) <==>
      Contents(slot) != [] && Resolve(coupons, form.coupon).Some? && form.paymentMethod == "paypal"
    ensures r.Ok? ==>
      && r.value.StripeSession?
      && r.value.successFile == None
      && r.value.lines == CheckoutLines(catalog, Contents(slot), Resolve(coupons, form.coupon).value)
      && r.value.total == EntrySum(catalog, Contents(slot), Resolve(coupons, form.coupon).value)
    ensures Contents(slot) != [] && Resolve(coupons, form.coupon).Some? && form.paymentMethod != "paypal" ==> r.Ok?
  {
    var c := Contents(slot);
    if c == [] then Err(EmptyCart)
    else
      match Resolve(coupons, form.coupon)
      case None => Err(InvalidCoupon)
      case Some(d) =>
        var lines := CheckoutLines(catalog, c, d);
        CheckoutTotalIsEntrySum(catalog, c, d);
        if form.paymentMethod == "paypal" then Err(PayPalUnavailable)
        else Ok(StripeSession(lines, LinesTotal(lines), None))
  }

  /** `checkout/<product_id>`: a missing product is a 404 whatever the method;
      GET shows the form; POST refuses an unknown coupon before looking at the
      payment method, sends PayPal customers on, and otherwise opens a Stripe
      session for one unit at the single-product unit price. */
  function CheckoutProduct(catalog: Catalog, coupons: CouponTable, id: ProductId, req: Request)
    : (r: Result<Checkout, CheckoutError>)
    ensures r == Err(ProductNotFound) <==> id !in catalog
    ensures id in catalog && req.Get? ==> r == Ok(ShowForm)
    ensures r == Err(InvalidCoupon) <==> id in catalog && req.Post? && Resolve(coupons, req.form.coupon).None?
    ensures r == Ok(PayPalRedirect(id)) <==>
      id in catalog && req.Post? && Resolve(coupons, req.form.coupon).Some? && req.form.paymentMethod == "paypal"
    ensures r.Ok? && r.value.StripeSession? ==>
      && id in catalog && req.Post? && Resolve(coupons, req.form.coupon).Some?
      && var unit := SingleUnit(catalog[id].price, Resolve(coupons, req.form.coupon).value);
      && r.value.lines == [LineItem(id, catalog[id].title, unit, 1)]
      && r.value.total == unit
      && r.value.successFile == Some(catalog[id].file)
    ensures id in catalog && req.Post? && Resolve(coupons, req.form.coupon).Some? && req.form.paymentMethod != "paypal" ==>
      r.Ok? && r.value.StripeSession?
    ensures r.Ok? && r.value.StripeSession? && WellFormed(coupons) && catalog[id].price >= 0 ==>
      0 <= r.value.total <= catalog[id].price
  {
    if id !in catalog then Err(ProductNotFound)
    else
      match req
      case Get => Ok(ShowForm)
      case Post(form) =>
        match Resolve(coupons, form.coupon)
        case None => Err(InvalidCoupon)
        case Some(d) =>
          var product := catalog[id];
          var unit := SingleUnit(product.price, d);
          if form.paymentMethod == "paypal" then Ok(PayPalRedirect(id))
          else Ok(StripeSession([LineItem(id, product.title, unit, 1)], unit, Some(product.file)))
  }

  /** The JSON reply of `validate_coupon`. */
  datatype Quote = NotValid | Quoted(discount: int, finalPrice: int)

  /** `validate_coupon`: `{"valid": False}` only for a missing product; any code,
      known or not, is quoted, with the formula applied even to a zero discount. */
  function ValidateCoupon(catalog: Catalog, coupons: CouponTable, raw: string, id: ProductId): (r: Quote)
    ensures r.NotValid? <==> id !in catalog
    ensures r.Quoted? ==> r.discount == QuotedDiscount(coupons, raw)
    ensures r.Quoted? ==> r.finalPrice == DiscountedUnit(catalog[id].price, r.discount)
    ensures r.Quoted? && Normalize(raw) !in coupons ==> r == Quoted(0, catalog[id].price)
  {
    if id !in catalog then NotValid
    else
      var d := QuotedDiscount(coupons, raw);
      Quoted(d, DiscountedUnit(catalog[id].price, d))
  }

  /** On a coupon table built by `create_coupon`, the price the shop quotes for
      a code it accepts is the unit price the single-product checkout charges and
      the unit price the cart checkout puts on that product's line; for a code
      checkout refuses, the quote is the undiscounted price. */
  lemma QuoteMatchesCharge(catalog: Catalog, coupons: CouponTable, raw: string, id: ProductId, payWith: string)
    requires WellFormed(coupons) && id in catalog
    ensures Resolve(coupons, raw).Some? && payWith != "paypal" ==>
      var q := ValidateCoupon(catalog, coupons, raw, id);
      && CheckoutProduct(catalog, coupons, id, Post(Form(raw, payWith))).value.lines[0].unitAmount == q.finalPrice
      && CartUnit(catalog[id].price, Resolve(coupons, raw).value) == q.finalPrice
    ensures Resolve(coupons, raw).None? ==>
      && ValidateCoupon(catalog, coupons, raw, id) == Quoted(0, catalog[id].price)
      && CheckoutProduct(catalog, coupons, id, Post(Form(raw, payWith))) == Err(InvalidCoupon)
  {
    QuoteAgreesWithCheckout(coupons, raw);
    if Resolve(coupons, raw).Some? {
      UnitBranchesAgree(catalog[id].price, Resolve(coupons, raw).value);
    }
  }

  // ---- worked examples ----

  function SampleCatalog(): Catalog {
    map["A" := Product("Prompt A", 1000, "a.pdf"), "B" := Product("Prompt B", 500, "b.pdf")]
  }

  function SampleCoupons(): CouponTable {
    map["SAVE10" := Coupon(Some(10))]
  }

  lemma NormalizeSample()
    ensures Normalize(" save10 ") == "SAVE10"
  {
    StripSample();
    UpperSample();
  }

  lemma UpperSample()
    ensures Upper("save10") == "SAVE10"
  {
    var u := Upper("save10");
    assert u[0] == ToUpperAscii('s') == 'S';
    assert u[1] == ToUpperAscii('a') == 'A';
    assert u[2] == ToUpperAscii('v') == 'V';
    assert u[3] == ToUpperAscii('e') == 'E';
    assert u[4] == '1' && u[5] == '0';
  }

  lemma StripSample()
    ensures Strip(" save10 ") == "save10"
  {
    PrintableNotSpace('s');
    PrintableNotSpace('0');
    assert " save10 "[1..] == "save10 ";
    assert LeadingSpace(" save10 ") == 1;
    assert "save10 "[..6] == "save10";
    assert TrailingSpace("save10 ") == 1;
  }

  lemma TallySample()
    ensures Tally(["A", "B", "A"]) == [Tallied("A", 2), Tallied("B", 1)]
  {
    var c: Cart := ["A", "B", "A"];
    assert c[..2] == ["A", "B"] && c[..2][..1] == ["A"] && c[..2][..1][..0] == [];
    assert Tally(["A"]) == [Tallied("A", 1)];
    var one := [Tallied("A", 1)];
    assert Bump(one, "B") == [Tallied("A", 1), Tallied("B", 1)] by {
      assert one[1..] == [];
    }
    assert Tally(["A", "B"]) == [Tallied("A", 1), Tallied("B", 1)];
    var two := [Tallied("A", 1), Tallied("B", 1)];
    assert Bump(two, "A") == [Tallied("A", 2), Tallied("B", 1)] by {
      assert two[1..] == [Tallied("B", 1)];
    }
  }

  lemma LinesSample()
    ensures Lines(SampleCatalog(), [Tallied("A", 2), Tallied("B", 1)], 10)
         == [LineItem("A", "Prompt A", 900, 2), LineItem("B", "Prompt B", 450, 1)]
  {
    var t := [Tallied("A", 2), Tallied("B", 1)];
    assert CartUnit(1000, 10) == 900 && CartUnit(500, 10) == 450;
    assert t[1..] == [Tallied("B", 1)] && t[1..][1..] == [];
  }

  /** A cart holding A twice and B once, with " save10 " typed in: the Stripe
      session gets A at 900 cents times 2 and B at 450 cents times 1, 2250 in all. */
  lemma TenPercentScenario()
    ensures CheckoutCart(SampleCatalog(), SampleCoupons(), Some(["A", "B", "A"]), Form(" save10 ", "card"))
         == Ok(StripeSession([LineItem("A", "Prompt A", 900, 2), LineItem("B", "Prompt B", 450, 1)], 2250, None))
  {
    TenPercentResolves();
    TenPercentLines();
  }

  lemma TenPercentResolves()
    ensures Resolve(SampleCoupons(), " save10 ") == Some(10)
  {
    NormalizeSample();
  }

  lemma TenPercentLines()
    ensures var lines := CheckoutLines(SampleCatalog(), ["A", "B", "A"], 10);
      && lines == [LineItem("A", "Prompt A", 900, 2), LineItem("B", "Prompt B", 450, 1)]
      && LinesTotal(lines) == 2250
  {
    TallySample();
    LinesSample();
    var lines := [LineItem("A", "Prompt A", 900, 2), LineItem("B", "Prompt B", 450, 1)];
    assert lines[1..] == [LineItem("B", "Prompt B", 450, 1)] && lines[1..][1..] == [];
  }

  /** An unknown code aborts the cart checkout before any payment is opened. */
  lemma UnknownCodeScenario()
    ensures CheckoutCart(SampleCatalog(), SampleCoupons(), Some(["A"]), Form("BADCODE", "card")) == Err(InvalidCoupon)
  {
    PrintableNotSpace('B');
    PrintableNotSpace('E');
    assert LeadingSpace("BADCODE") == 0 && TrailingSpace("BADCODE") == 0;
    assert Strip("BADCODE") == "BADCODE";
    assert Normalize("BADCODE") == Upper("BADCODE");
    assert |Normalize("BADCODE")| == 7;
    assert Resolve(SampleCoupons(), "BADCODE") == None;
  }

  /** A card purchase of one product opens a Stripe session whose success URL
      names the product's file, but `success` reads only the session cart: with
      no cart, or an empty one, the paid product is never recorded. Fulfilling
      the product itself records it and makes it downloadable. */
  lemma CardPurchaseGrantsNothing(ledger: Ledger.Ledger, user: UserId, email: string, now: int)
    ensures CheckoutProduct(SampleCatalog(), SampleCoupons(), "A", Post(Form("", "card")))
         == Ok(StripeSession([LineItem("A", "Prompt A", 1000, 1)], 1000, Some("a.pdf")))
    ensures Ledger.Success(SampleCatalog(), ledger, None, user, email, now).ledger == ledger
    ensures Ledger.Success(SampleCatalog(), ledger, Some([]), user, email, now).ledger == ledger
    ensures Ledger.FulfilProduct(SampleCatalog(), ledger, None, "A", user, email, now).value.ledger
         == ledger + [Ledger.Entitlement(user, email, "a.pdf", now)]
  {
    assert AllSpace("");
    assert Resolve(SampleCoupons(), "") == Some(0);
  }
}

=== FILE: coupons.dfy ===
/** Discount codes (app.py:310-319, 359-374, 385-394, 636-648). A code typed by a
    customer or an admin is normalised with Python's `strip().upper()` before it
    is stored or looked up; the coupon collection is a map from normalised code
    to the stored record, so an upsert keeps exactly one record per code. */
module Coupons {
  import opened Outcomes

  // ---- normalisation: `code.strip().upper()` ----

  /** Python's `str.isspace()` characters, the ones `str.strip()` removes by
      default, as inclusive ranges of code points. */
  const SpaceRanges: seq<(int, int)> := [
    (9, 13), (28, 32), (0x85, 0x85), (0xA0, 0xA0), (0x1680, 0x1680),
    (0x2000, 0x200A), (0x2028, 0x2029), (0x202F, 0x202F), (0x205F, 0x205F), (0x3000, 0x3000)]

  predicate InRanges(n: int, ranges: seq<(int, int)>) {
    ranges != [] && (ranges[0].0 <= n <= ranges[0].1 || InRanges(n, ranges[1..]))
  }

  predicate IsSpace(ch: char) {
    InRanges(ch as int, SpaceRanges)
  }

  /** No range reaches into the printable ASCII block from '!' to '~'. */
  lemma {:induction false} PrintableOutsideRanges(n: int, ranges: seq<(int, int)>)
    requires 33 <= n <= 126
    requires forall i :: 0 <= i < |ranges| ==> ranges[i].1 < 33 || 126 < ranges[i].0
    ensures !InRanges(n, ranges)
  {
    if ranges != [] {
      PrintableOutsideRanges(n, ranges[1..]);
    }
  }

  /** Printable ASCII characters, letters and digits among them, are not whitespace. */
  lemma PrintableNotSpace(ch: char)
    requires '!' <= ch <= '~'
    ensures !IsSpace(ch)
  {
    PrintableOutsideRanges(ch as int, SpaceRanges);
  }

  predicate AllSpace(s: string) {
    forall i :: 0 <= i < |s| ==> IsSpace(s[i])
  }

  predicate IsLowerAscii(ch: char) {
    'a' <= ch <= 'z'
  }

  /** `str.upper()` on one character: a lower-case ASCII letter becomes the
      capital 32 code points below it, and every other character is kept. */
  function ToUpperAscii(ch: char): (u: char)
    ensures !IsLowerAscii(u)
    ensures IsSpace(u) == IsSpace(ch)
    ensures IsLowerAscii(ch) ==> u as int == ch as int - 32 && 'A' <= u <= 'Z'
    ensures !IsLowerAscii(ch) ==> u == ch
  {
    if IsLowerAscii(ch) then
      var u := (ch as int - 32) as char;
      PrintableNotSpace(ch);
      PrintableNotSpace(u);
      u
    else ch
  }

  /** Length of the leading whitespace run, the part `str.lstrip()` removes. */
  function LeadingSpace(s: string): (n: nat)
    ensures n <= |s|
    ensures forall k :: 0 <= k < n ==> IsSpace(s[k])
    ensures n < |s| ==> !IsSpace(s[n])
  {
    if s != [] && IsSpace(s[0]) then
      var n := 1 + LeadingSpace(s[1..]);
      assert forall k :: 1 <= k < n ==> s[k] == s[1..][k - 1];
      n
    else 0
  }

  /** Length of the trailing whitespace run, the part `str.rstrip()` removes. */
  function TrailingSpace(s: string): (n: nat)
    ensures n <= |s|
    ensures forall k :: |s| - n <= k < |s| ==> IsSpace(s[k])
    ensures n < |s| ==> !IsSpace(s[|s| - n - 1])
  {
    if s != [] && IsSpace(s[|s| - 1]) then
      var n := 1 + TrailingSpace(s[..|s| - 1]);
      assert forall k :: |s| - n <= k < |s| - 1 ==> s[k] == s[..|s| - 1][k];
      n
    else 0
  }

  /** `str.lstrip()`. */
  function TrimStart(s: string): string {
    s[LeadingSpace(s)..]
  }

  /** `str.rstrip()`. */
  function TrimEnd(s: string): string {
    s[..|s| - TrailingSpace(s)]
  }

  /** `str.strip()`: the part of `s` between its leading and its trailing run of
      whitespace, with no whitespace at either end; it is empty exactly when `s`
      is nothing but whitespace. */
  function Strip(s: string): (r: string)
    ensures LeadingSpace(s) + |r| <= |s|
    ensures r == s[LeadingSpace(s)..LeadingSpace(s) + |r|]
    ensures forall k :: 0 <= k < LeadingSpace(s) ==> IsSpace(s[k])
    ensures forall k :: LeadingSpace(s) + |r| <= k < |s| ==> IsSpace(s[k])
    ensures r != [] ==> !IsSpace(r[0]) && !IsSpace(r[|r| - 1])
    ensures r == [] <==> AllSpace(s)
  {
    var i := LeadingSpace(s);
    var t := TrimStart(s);
    assert forall k :: 0 <= k < |t| ==> t[k] == s[i + k];
    TrimEnd(t)
  }

  /** `str.upper()` on ASCII letters: only lower-case letters change, each into
      its capital, so no lower-case letter is left and whitespace stays put. */
  function Upper(s: string): (r: string)
    ensures |r| == |s|
    ensures forall i :: 0 <= i < |r| ==> !IsLowerAscii(r[i])
    ensures forall i :: 0 <= i < |r| ==> IsSpace(r[i]) == IsSpace(s[i])
    ensures forall i :: 0 <= i < |r| && !IsLowerAscii(s[i]) ==> r[i] == s[i]
    ensures forall i :: 0 <= i < |r| && IsLowerAscii(s[i]) ==> r[i] as int == s[i] as int - 32
  {
    seq(|s|, i requires 0 <= i < |s| => ToUpperAscii(s[i]))
  }

  /** A code as the shop stores and compares it. */
  function Normalize(raw: string): (code: string)
    ensures code == [] <==> AllSpace(raw)
    ensures code != [] ==> !IsSpace(code[0]) && !IsSpace(code[|code| - 1])
    ensures forall i :: 0 <= i < |code| ==> !IsLowerAscii(code[i])
    ensures |code| <= |raw|
  {
    Upper(Strip(raw))
  }

  /** What normalisation keeps of the typed code: the characters after its
      leading whitespace, capitalised one by one, up to a tail that is all
      whitespace. */
  lemma NormalizeKeepsMiddle(raw: string)
    ensures var code := Normalize(raw);
      && LeadingSpace(raw) + |code| <= |raw|
      && (forall i :: 0 <= i < |code| ==> code[i] == ToUpperAscii(raw[LeadingSpace(raw) + i]))
      && (forall k :: LeadingSpace(raw) + |code| <= k < |raw| ==> IsSpace(raw[k]))
  {
  }

  /** Normalising a normalised code changes nothing: the codes `create_coupon`
      stores are already in the form checkout looks codes up in. */
  lemma {:induction false} NormalizeIdempotent(raw: string)
    ensures Normalize(Normalize(raw)) == Normalize(raw)
  {
    var code := Normalize(raw);
    assert code != [] ==> LeadingSpace(code) == 0 && TrailingSpace(code) == 0;
    assert Strip(code) == code;
    assert Upper(code) == code;
  }

  /** The leading whitespace run is the unique prefix of whitespace followed by
      a non-space character or the end. */
  lemma LeadingSpaceUnique(s: string, n: nat)
    requires n <= |s|
    requires forall k :: 0 <= k < n ==> IsSpace(s[k])
    requires n < |s| ==> !IsSpace(s[n])
    ensures LeadingSpace(s) == n
  {
  }

  /** `str.strip()` is the only slice with whitespace outside it and
      non-space characters at both of its ends. */
  lemma StripUnique(s: string, i: nat, j: nat)
    requires i <= j <= |s|
    requires forall k :: 0 <= k < i ==> IsSpace(s[k])
    requires forall k :: j <= k < |s| ==> IsSpace(s[k])
    requires i < j ==> !IsSpace(s[i]) && !IsSpace(s[j - 1])
    ensures Strip(s) == s[i..j]
  {
    var r := Strip(s);
    if i == j {
      assert AllSpace(s) by {
        forall k | 0 <= k < |s| ensures IsSpace(s[k]) {
          if k < i {} else {}
        }
      }
    } else {
      LeadingSpaceUnique(s, i);
      assert !AllSpace(s) by { assert !IsSpace(s[i]); }
      var e := i + |r|;
      assert r[|r| - 1] == s[e - 1];
    }
  }

  /** Two spellings that differ only in the case of ASCII letters. */
  predicate SameUpToCase(a: string, b: string) {
    && |a| == |b|
    && forall i :: 0 <= i < |a| ==> ToUpperAscii(a[i]) == ToUpperAscii(b[i])
  }

  /** Whitespace sits at the same positions in two spellings that differ only
      in case, because letters are not whitespace. */
  lemma SameUpToCaseSpaces(a: string, b: string)
    requires SameUpToCase(a, b)
    ensures forall i :: 0 <= i < |a| ==> IsSpace(a[i]) == IsSpace(b[i])
  {
    forall i | 0 <= i < |a| ensures IsSpace(a[i]) == IsSpace(b[i]) {
      assert IsSpace(ToUpperAscii(a[i])) == IsSpace(a[i]);
      assert IsSpace(ToUpperAscii(b[i])) == IsSpace(b[i]);
    }
  }

  /** Case does not matter: two spellings that differ only in the case of ASCII
      letters normalise to the same code. */
  lemma NormalizeIgnoresCase(a: string, b: string)
    requires SameUpToCase(a, b)
    ensures Normalize(a) == Normalize(b)
  {
    var ra := Strip(a);
    var la := LeadingSpace(a);
    var j := la + |ra|;
    StripBordersCarryOver(a, b);
    StripUnique(b, la, j);
    UpperSameUpToCase(ra, b[la..j]);
  }

  /** The borders of `a`'s stripped part are borders for `b` as well. */
  lemma StripBordersCarryOver(a: string, b: string)
    requires SameUpToCase(a, b)
    ensures var la, j := LeadingSpace(a), LeadingSpace(a) + |Strip(a)|;
      && j <= |b|
      && (forall k :: 0 <= k < la ==> IsSpace(b[k]))
      && (forall k :: j <= k < |b| ==> IsSpace(b[k]))
      && (la < j ==> !IsSpace(b[la]) && !IsSpace(b[j - 1]))
  {
    SameUpToCaseSpaces(a, b);
    var ra := Strip(a);
    var la, j := LeadingSpace(a), LeadingSpace(a) + |Strip(a)|;
    assert la < j ==> ra[0] == a[la] && ra[|ra| - 1] == a[j - 1];
  }

  /** Capitalising erases exactly the differences of case. */
  lemma UpperSameUpToCase(x: string, y: string)
    requires SameUpToCase(x, y)
    ensures Upper(x) == Upper(y)
  {
  }

  /** Padding does not matter: whitespace added before or after a code is
      removed again by normalisation. */
  lemma NormalizeIgnoresPadding(before: string, raw: string, after: string)
    requires AllSpace(before) && AllSpace(after)
    ensures Normalize(before + raw + after) == Normalize(raw)
  {
    StripIgnoresPadding(before, raw, after);
  }

  lemma StripIgnoresPadding(before: string, raw: string, after: string)
    requires AllSpace(before) && AllSpace(after)
    ensures Strip(before + raw + after) == Strip(raw)
  {
    var s := before + raw + after;
    var r := Strip(raw);
    var i := |before| + LeadingSpace(raw);
    var j := i + |r|;
    PaddedHead(before, raw, after);
    PaddedTail(before, raw, after);
    assert forall k :: 0 <= k < |r| ==> r[k] == s[i + k];
    StripUnique(s, i, j);
    assert s[i..j] == r;
  }

  /** Everything in front of the stripped code, padding included, is whitespace. */
  lemma PaddedHead(before: string, raw: string, after: string)
    requires AllSpace(before)
    ensures forall k :: 0 <= k < |before| + LeadingSpace(raw) ==> IsSpace((before + raw + after)[k])
  {
    var s := before + raw + after;
    forall k | 0 <= k < |before| + LeadingSpace(raw) ensures IsSpace(s[k]) {
      if k < |before| {
        assert s[k] == before[k];
      } else {
        assert s[k] == raw[k - |before|];
      }
    }
  }

  /** Everything after the stripped code, padding included, is whitespace. */
  lemma PaddedTail(before: string, raw: string, after: string)
    requires AllSpace(after)
    ensures forall k :: |before| + LeadingSpace(raw) + |Strip(raw)| <= k < |before + raw + after| ==>
      IsSpace((before + raw + after)[k])
  {
    var s := before + raw + after;
    var q := |before| + |raw|;
    forall k | |before| + LeadingSpace(raw) + |Strip(raw)| <= k < |s| ensures IsSpace(s[k]) {
      if k < q {
        assert s[k] == raw[k - |before|];
      } else {
        assert s[k] == after[k - q];
      }
    }
  }

  // ---- the coupon collection ----

  /** A stored coupon. The readers use `coupon.get("discount", 0)`, so a record
      without a discount field is representable. */
  datatype Coupon = Coupon(discount: Option<int>)

  type CouponTable = map<string, Coupon>

  function DiscountOf(c: Coupon): int {
    c.discount.GetOr(0)
  }

  /** What `create_coupon` guarantees of every record it writes: a non-empty
      normalised code and a percentage in (0, 100]. */
  predicate WellFormed(t: CouponTable) {
    forall code :: code in t ==>
      && code != ""
      && Normalize(code) == code
      && t[code].discount.Some?
      && 0 < t[code].discount.value <= 100
  }

  /** `coupons.find_one({"code": code})` followed by `.get("discount", 0)`. */
  function Lookup(t: CouponTable, code: string): (d: Option<int>)
    ensures d.None? <==> code !in t
    ensures d.Some? ==> d.value == DiscountOf(t[code])
    ensures WellFormed(t) && d.Some? ==> 0 < d.value <= 100
  {
    if code in t then Some(DiscountOf(t[code])) else None
  }

  /** The coupon branch both checkout routes share (app.py:310-319, 385-394): an
      empty code means no discount, a known code gives its discount, and an
      unknown non-empty code is refused (`None`). */
  function Resolve(t: CouponTable, raw: string): (d: Option<int>)
    ensures d.None? <==> Normalize(raw) != "" && Normalize(raw) !in t
    ensures Normalize(raw) == "" ==> d == Some(0)
    ensures Normalize(raw) in t && Normalize(raw) != "" ==> d == Some(DiscountOf(t[Normalize(raw)]))
    ensures WellFormed(t) && d.Some? ==> 0 <= d.value <= 100
  {
    var code := Normalize(raw);
    if code == "" then Some(0) else Lookup(t, code)
  }

  /** The discount `validate_coupon` reports (app.py:361, 368-371): it never
      refuses a code, an unknown one simply gives 0. Unlike checkout it also
      looks the empty code up. */
  function QuotedDiscount(t: CouponTable, raw: string): (d: int)
    ensures Normalize(raw) !in t ==> d == 0
    ensures Normalize(raw) in t ==> d == DiscountOf(t[Normalize(raw)])
  {
    Lookup(t, Normalize(raw)).GetOr(0)
  }

  /** On a table `create_coupon` built, the quote and the checkout agree on every
      code checkout accepts, and a code checkout refuses is quoted at 0. */
  lemma QuoteAgreesWithCheckout(t: CouponTable, raw: string)
    requires WellFormed(t)
    ensures Resolve(t, raw).Some? ==> QuotedDiscount(t, raw) == Resolve(t, raw).value
    ensures Resolve(t, raw).None? ==> QuotedDiscount(t, raw) == 0
  {
  }

  /** `create_coupon` (app.py:636-648): refuses an empty code or a discount
      outside (0, 100] and leaves the collection alone; otherwise upserts the
      normalised code, so the collection still holds one record per code. */
  function CreateCoupon(t: CouponTable, raw: string, discount: int): (r: Option<CouponTable>)
    ensures r.None? <==> Normalize(raw) == "" || discount <= 0 || discount > 100
    ensures r.Some? ==> r.value.Keys == t.Keys + {Normalize(raw)}
    ensures r.Some? ==> r.value[Normalize(raw)] == Coupon(Some(discount))
    ensures r.Some? ==> forall code :: code in t && code != Normalize(raw) ==> r.value[code] == t[code]
  {
    var code := Normalize(raw);
    if code == "" || discount <= 0 || discount > 100 then None
    else Some(t[code := Coupon(Some(discount))])
  }

  /** Every table `create_coupon` writes satisfies what the readers rely on: the
      collection stays well formed under any sequence of admin upserts. */
  lemma CreateCouponKeepsWellFormed(t: CouponTable, raw: string, discount: int)
    requires WellFormed(t)
    ensures CreateCoupon(t, raw, discount).Some? ==> WellFormed(CreateCoupon(t, raw, discount).value)
  {
    var code := Normalize(raw);
    if CreateCoupon(t, raw, discount).Some? {
      NormalizeIdempotent(raw);
      var t' := CreateCoupon(t, raw, discount).value;
      forall c | c in t'
        ensures c != "" && Normalize(c) == c && t'[c].discount.Some? && 0 < t'[c].discount.value <= 100
      {
        if c != code {
          assert c in t;
        }
      }
    }
  }

  /** After a successful upsert, every spelling of the code that normalises to the
      same string resolves to the new discount at checkout. */
  lemma CreateThenResolve(t: CouponTable, raw: string, discount: int, typed: string)
    requires CreateCoupon(t, raw, discount).Some?
    requires Normalize(typed) == Normalize(raw)
    ensures Resolve(CreateCoupon(t, raw, discount).value, typed) == Some(discount)
  {
  }

  /** Saving the same coupon twice leaves the collection as saving it once. */
  lemma CreateCouponIdempotent(t: CouponTable, raw: string, discount: int)
    requires CreateCoupon(t, raw, discount).Some?
    ensures CreateCoupon(CreateCoupon(t, raw, discount).value, raw, discount) == CreateCoupon(t, raw, discount)
  {
    var code := Normalize(raw);
    var t' := t[code := Coupon(Some(discount))];
    assert t'[code := Coupon(Some(discount))] == t';
  }
}

=== FILE: ledger.dfy ===
/** The purchase ledger and the three routes that use it: `success` turns the
    cart into purchase records (app.py:487-514), `orders` shows each of the
    user's records with a status (app.py:516-533), and `download` lets a record's
    file be fetched once before it expires (app.py:548-571). Time is an integer
    count of microseconds, the resolution of Python's `datetime`; the ledger is
    the purchases collection in insertion order. MongoDB leaves the order of
    `find` and `find_one` unspecified; the model assumes they return records in
    insertion order, the order a collection without deletions usually yields. */
module Ledger {
  import opened Outcomes
  import opened Store
  import opened Cart

  const MicrosPerDay: int := 86_400_000_000

  /** `timedelta(days=7)`: how long a purchased file stays downloadable. */
  const DownloadWindow: int := 7 * MicrosPerDay

  /** A purchase record. `expiresAt` is optional because readers use
      `get("expires_at")`; every record this code writes has one. */
  datatype Purchase = Purchase(
    userId: UserId,
    email: string,
    file: FileName,
    timestamp: int,
    downloaded: bool,
    expiresAt: Option<int>)

  type Ledger = seq<Purchase>

  /** The record `success` inserts: not yet downloaded, expiring a week on. */
  function Entitlement(user: UserId, email: string, file: FileName, now: int): Purchase {
    Purchase(user, email, file, now, false, Some(now + DownloadWindow))
  }

  /** The arguments of one `send_invoice_email` call: the catalog price, not the
      price paid after a discount. */
  datatype Invoice = Invoice(email: string, product: Product, price: int, timestamp: int)

  // ---- fulfilment: `success` ----

  /** Reference: the cart entries whose product still exists, in cart order. */
  function Purchasable(catalog: Catalog, c: Cart): (r: Cart)
    ensures |r| <= |c|
    ensures forall i :: 0 <= i < |r| ==> r[i] in catalog
  {
    if c == [] then []
    else (if c[0] in catalog then [c[0]] else []) + Purchasable(catalog, c[1..])
  }

  /** The filter keeps every entry of an existing product, as often as the cart
      holds it, and nothing else. */
  lemma {:induction false} PurchasableCounts(catalog: Catalog, c: Cart, p: ProductId)
    ensures Count(Purchasable(catalog, c), p) == if p in catalog then Count(c, p) else 0
  {
    if c != [] {
      PurchasableCounts(catalog, c[1..], p);
      var kept: Cart := if c[0] in catalog then [c[0]] else [];
      var rest := Purchasable(catalog, c[1..]);
      assert c == [c[0]] + c[1..];
      assert multiset(c) == multiset{c[0]} + multiset(c[1..]);
      assert multiset(kept + rest) == multiset(kept) + multiset(rest);
    }
  }

  /** The records the loop `for pid in cart` inserts: one per entry, skipping
      entries whose product is gone. */
  function Grants(catalog: Catalog, c: Cart, user: UserId, email: string, now: int): seq<Purchase> {
    if c == [] then []
    else
      (if c[0] in catalog then [Entitlement(user, email, catalog[c[0]].file, now)] else [])
      + Grants(catalog, c[1..], user, email, now)
  }

  /** The invoices the same loop sends, one per inserted record. */
  function Invoices(catalog: Catalog, c: Cart, email: string, now: int): seq<Invoice> {
    if c == [] then []
    else
      (if c[0] in catalog then [Invoice(email, catalog[c[0]], catalog[c[0]].price, now)] else [])
      + Invoices(catalog, c[1..], email, now)
  }

  /** The i-th record belongs to the i-th purchasable entry: one record per
      cart entry, so a product in the cart twice is granted twice. */
  lemma {:induction false} GrantsFollowCart(catalog: Catalog, c: Cart, user: UserId, email: string, now: int)
    ensures var g := Grants(catalog, c, user, email, now);
      var ps := Purchasable(catalog, c);
      && |g| == |ps|
      && (forall i :: 0 <= i < |ps| ==> g[i] == Entitlement(user, email, catalog[ps[i]].file, now))
  {
    if c != [] {
      GrantsFollowCart(catalog, c[1..], user, email, now);
      var g := Grants(catalog, c, user, email, now);
      var ps := Purchasable(catalog, c);
      var gRest := Grants(catalog, c[1..], user, email, now);
      var rest := Purchasable(catalog, c[1..]);
      if c[0] in catalog {
        assert ps == [c[0]] + rest;
        assert g == [Entitlement(user, email, catalog[c[0]].file, now)] + gRest;
        forall i | 1 <= i < |ps|
          ensures ps[i] == rest[i - 1] && g[i] == gRest[i - 1]
        {
        }
      } else {
        assert ps == rest && g == gRest;
      }
    }
  }

  /** The i-th invoice is for the i-th purchasable entry, at its catalog price. */
  lemma {:induction false} InvoicesFollowCart(catalog: Catalog, c: Cart, email: string, now: int)
    ensures var inv := Invoices(catalog, c, email, now);
      var ps := Purchasable(catalog, c);
      && |inv| == |ps|
      && (forall i :: 0 <= i < |ps| ==> inv[i] == Invoice(email, catalog[ps[i]], catalog[ps[i]].price, now))
  {
    if c != [] {
      InvoicesFollowCart(catalog, c[1..], email, now);
      var inv := Invoices(catalog, c, email, now);
      var ps := Purchasable(catalog, c);
      var invRest := Invoices(catalog, c[1..], email, now);
      var rest := Purchasable(catalog, c[1..]);
      if c[0] in catalog {
        assert ps == [c[0]] + rest;
        assert inv == [Invoice(email, catalog[c[0]], catalog[c[0]].price, now)] + invRest;
        forall i | 1 <= i < |ps|
          ensures ps[i] == rest[i - 1] && inv[i] == invRest[i - 1]
        {
        }
      } else {
        assert ps == rest && inv == invRest;
      }
    }
  }

  /** What `success` leaves behind. `shownFile` is the file the page offers. */
  datatype Fulfilment = Fulfilment(ledger: Ledger, cart: Option<Cart>, invoices: seq<Invoice>, shownFile: Option<FileName>)

  /** `success`: an empty cart changes nothing; otherwise records are only
      appended, earlier ones stay as they were, the cart is emptied, and the page
      offers the first new record's file. */
  function Success(catalog: Catalog, ledger: Ledger, slot: Option<Cart>, user: UserId, email: string, now: int)
    : (r: Fulfilment)
    ensures Contents(slot) == [] ==> r == Fulfilment(ledger, slot, [], None)
    ensures Contents(slot) != [] ==> r.cart == Some([])
    ensures |r.ledger| >= |ledger| && r.ledger[..|ledger|] == ledger
    ensures r.shownFile == if |r.ledger| > |ledger| then Some(r.ledger[|ledger|].file) else None
  {
    var c := Contents(slot);
    if c == [] then Fulfilment(ledger, slot, [], None)
    else
      var added := Grants(catalog, c, user, email, now);
      var r := Fulfilment(ledger + added, Some([]), Invoices(catalog, c, email, now),
                          if added == [] then None else Some(added[0].file));
      assert r.ledger[..|ledger|] == ledger;
      assert added != [] ==> r.ledger[|ledger|] == added[0];
      r
  }

  /** What `success` appends: one fresh record for this user per cart entry
      whose product exists, in cart order, and one invoice per record at the
      catalog price. */
  lemma SuccessFollowsCart(catalog: Catalog, ledger: Ledger, slot: Option<Cart>, user: UserId, email: string, now: int)
    ensures var r := Success(catalog, ledger, slot, user, email, now);
      var ps := Purchasable(catalog, Contents(slot));
      && |r.ledger| == |ledger| + |ps|
      && (forall i :: 0 <= i < |ps| ==> r.ledger[|ledger| + i] == Entitlement(user, email, catalog[ps[i]].file, now))
      && |r.invoices| == |ps|
      && (forall i :: 0 <= i < |ps| ==> r.invoices[i].product == catalog[ps[i]] && r.invoices[i].price == catalog[ps[i]].price)
  {
    var c := Contents(slot);
    GrantsFollowCart(catalog, c, user, email, now);
    InvoicesFollowCart(catalog, c, email, now);
    if c != [] {
      var added := Grants(catalog, c, user, email, now);
      assert forall i :: 0 <= i < |added| ==> (ledger + added)[|ledger| + i] == added[i];
    }
  }

  /** Fulfilment of one bought product, as `paypal_execute` does it
      (app.py:474-483) and as the card checkout of one product needs it: one
      fresh record for the product's file and one invoice at its catalog price;
      the session cart is left alone, and the file can be fetched right away.
      An unknown product fulfils nothing. */
  function FulfilProduct(catalog: Catalog, ledger: Ledger, slot: Option<Cart>, id: ProductId,
                         user: UserId, email: string, now: int): (r: Option<Fulfilment>)
    ensures r.None? <==> id !in catalog
    ensures r.Some? ==>
      && r.value.ledger == ledger + [Entitlement(user, email, catalog[id].file, now)]
      && r.value.cart == slot
      && r.value.invoices == [Invoice(email, catalog[id], catalog[id].price, now)]
      && r.value.shownFile == Some(catalog[id].file)
    ensures r.Some? ==> DownloadAnyReady(r.value.ledger, user, catalog[id].file, now).outcome.Served?
  {
    if id !in catalog then None
    else
      var file := catalog[id].file;
      var after := ledger + [Entitlement(user, email, file, now)];
      assert Matches(after[|ledger|], user, file) && StatusOf(after[|ledger|], now) == Ready;
      Some(Fulfilment(after, slot, [Invoice(email, catalog[id], catalog[id].price, now)], Some(file)))
  }

  /** A record `success` creates reads "Bereit" up to and including the moment
      seven days after its creation and "Abgelaufen" from then on, and the gate
      serves it exactly while it reads "Bereit". */
  lemma EntitlementWindow(user: UserId, email: string, file: FileName, t: int, now: int, fallbackNow: int)
    ensures var e := Entitlement(user, email, file, t);
      && !e.downloaded && e.timestamp == t && e.expiresAt == Some(t + DownloadWindow)
      && StatusOf(e, now) == (if now > t + 7 * MicrosPerDay then Expired else Ready)
      && Download([e], user, file, now, fallbackNow).outcome.Served? == (now <= t + 7 * MicrosPerDay)
  {
    var e := Entitlement(user, email, file, t);
    assert FindFirst([e], user, file) == Some(0);
  }

  /** Reloading the success page after a fulfilment grants nothing more: the
      first visit emptied the cart. */
  lemma SuccessReloadGrantsNothing(catalog: Catalog, ledger: Ledger, slot: Option<Cart>, user: UserId, email: string, now: int, later: int)
    ensures var first := Success(catalog, ledger, slot, user, email, now);
      Success(catalog, first.ledger, first.cart, user, email, later) == Fulfilment(first.ledger, first.cart, [], None)
  {
  }

  /** A product in the cart twice yields two records for its file. */
  lemma DuplicateEntryGrantsTwice(ledger: Ledger, user: UserId, email: string, now: int)
    ensures var catalog := map["A" := Product("Prompt A", 1000, "a.pdf")];
      Success(catalog, ledger, Some(["A", "A"]), user, email, now).ledger
        == ledger + [Entitlement(user, email, "a.pdf", now), Entitlement(user, email, "a.pdf", now)]
  {
    var catalog := map["A" := Product("Prompt A", 1000, "a.pdf")];
    var c: Cart := ["A", "A"];
    assert c[1..] == ["A"] && c[1..][1..] == [];
    assert Grants(catalog, [], user, email, now) == [];
    assert Grants(catalog, ["A"], user, email, now) == [Entitlement(user, email, "a.pdf", now)];
    assert Grants(catalog, c, user, email, now)
        == [Entitlement(user, email, "a.pdf", now), Entitlement(user, email, "a.pdf", now)];
  }

  // ---- the orders page ----

  /** `o.get("expires_at") and now > o["expires_at"]`: a record without an
      expiry never counts as expired. */
  predicate IsExpired(p: Purchase, now: int) {
    p.expiresAt.Some? && now > p.expiresAt.value
  }

  datatype OrderStatus = Expired | Downloaded | Ready

  /** The status the orders page assigns; expiry takes precedence. */
  function StatusOf(p: Purchase, now: int): (s: OrderStatus)
    ensures s == Expired <==> IsExpired(p, now)
    ensures s == Downloaded <==> !IsExpired(p, now) && p.downloaded
    ensures s == Ready <==> !IsExpired(p, now) && !p.downloaded
  {
    if IsExpired(p, now) then Expired
    else if p.downloaded then Downloaded
    else Ready
  }

  /** The status text the page shows. */
  function Label(s: OrderStatus): string {
    match s
    case Expired => "Abgelaufen"
    case Downloaded => "Bereits heruntergeladen"
    case Ready => "Bereit"
  }

  /** `purchases.find({"user_id": user})`, in ledger order. */
  function UserPurchases(ledger: Ledger, user: UserId): (r: Ledger)
    ensures |r| <= |ledger|
    ensures forall i :: 0 <= i < |r| ==> r[i].userId == user
    ensures forall p :: p in r <==> p in ledger && p.userId == user
  {
    if ledger == [] then []
    else
      var rest := UserPurchases(ledger[1..], user);
      assert ledger == [ledger[0]] + ledger[1..];
      (if ledger[0].userId == user then [ledger[0]] else []) + rest
  }

  /** The history holds each of the user's records as often as the ledger does,
      and nobody else's. */
  lemma {:induction false} UserPurchasesCounts(ledger: Ledger, user: UserId, p: Purchase)
    ensures multiset(UserPurchases(ledger, user))[p] == if p.userId == user then multiset(ledger)[p] else 0
  {
    if ledger != [] {
      UserPurchasesCounts(ledger[1..], user, p);
      var kept: Ledger := if ledger[0].userId == user then [ledger[0]] else [];
      var rest := UserPurchases(ledger[1..], user);
      assert UserPurchases(ledger, user) == kept + rest;
      assert ledger == [ledger[0]] + ledger[1..];
      assert multiset(ledger) == multiset{ledger[0]} + multiset(ledger[1..]);
      assert multiset(kept + rest) == multiset(kept) + multiset(rest);
    }
  }

  /** The history keeps ledger order: the user's records from an earlier part of
      the ledger come before those from a later part. */
  lemma {:induction false} UserPurchasesAppend(a: Ledger, b: Ledger, user: UserId)
    ensures UserPurchases(a + b, user) == UserPurchases(a, user) + UserPurchases(b, user)
  {
    if a != [] {
      assert (a + b)[1..] == a[1..] + b;
      UserPurchasesAppend(a[1..], b, user);
    } else {
      assert a + b == b;
    }
  }

  /** One row of the orders page. */
  datatype OrderRow = OrderRow(purchase: Purchase, status: string, downloadable: bool)

  function Row(p: Purchase, now: int): OrderRow {
    var s := StatusOf(p, now);
    OrderRow(p, Label(s), s == Ready)
  }

  /** `orders`: one row per record of the user, in ledger order. An expired
      record reads "Abgelaufen" whether or not it was downloaded, and a row is
      downloadable exactly when its record is neither expired nor downloaded. */
  function Orders(ledger: Ledger, user: UserId, now: int): (rows: seq<OrderRow>)
    ensures |rows| == |UserPurchases(ledger, user)|
    ensures forall i :: 0 <= i < |rows| ==> rows[i].purchase == UserPurchases(ledger, user)[i]
    ensures forall i :: 0 <= i < |rows| ==> rows[i].purchase.userId == user
    ensures forall i :: 0 <= i < |rows| ==>
      (rows[i].downloadable <==> !IsExpired(rows[i].purchase, now) && !rows[i].purchase.downloaded)
    ensures forall i :: 0 <= i < |rows| && IsExpired(rows[i].purchase, now) ==> rows[i].status == "Abgelaufen"
    ensures forall i :: 0 <= i < |rows| && !IsExpired(rows[i].purchase, now) && rows[i].purchase.downloaded ==>
      rows[i].status == "Bereits heruntergeladen"
    ensures forall i :: 0 <= i < |rows| && !IsExpired(rows[i].purchase, now) && !rows[i].purchase.downloaded ==>
      rows[i].status == "Bereit"
  {
    var history := UserPurchases(ledger, user);
    seq(|history|, i requires 0 <= i < |history| => Row(history[i], now))
  }

  // ---- the download gate ----

  predicate Matches(p: Purchase, user: UserId, file: FileName) {
    p.userId == user && p.file == file
  }

  /** `purchases.find_one({"user_id": user, "file": file})`: the first match. */
  function FindFirst(ledger: Ledger, user: UserId, file: FileName): (r: Option<nat>)
    ensures r.None? <==> forall i :: 0 <= i < |ledger| ==> !Matches(ledger[i], user, file)
    ensures r.Some? ==> r.value < |ledger| && Matches(ledger[r.value], user, file)
    ensures r.Some? ==> forall j :: 0 <= j < r.value ==> !Matches(ledger[j], user, file)
  {
    if ledger == [] then None
    else if Matches(ledger[0], user, file) then Some(0)
    else
      match FindFirst(ledger[1..], user, file)
      case None => None
      case Some(k) => Some(k + 1)
  }

  datatype DownloadOutcome =
    | Forbidden          // abort(403): nothing bought
    | LinkExpired        // "Dieser Download-Link ist abgelaufen."
    | AlreadyDownloaded  // "Du hast diese Datei bereits heruntergeladen."
    | Served(path: string)

  datatype Gate = Gate(outcome: DownloadOutcome, ledger: Ledger)

  const UploadFolder: string := "static/downloads"

  /** `datetime.utcnow() > purchase.get("expires_at", datetime.utcnow())`. The
      default is a second clock reading, `fallbackNow`, taken after `now`. */
  predicate GateExpired(p: Purchase, now: int, fallbackNow: int) {
    now > p.expiresAt.GetOr(fallbackNow)
  }

  /** `download`: no record is a 403; then an expired record is refused whatever
      its flag; then a downloaded one; otherwise the file is served and that
      record's flag, and nothing else in the ledger, becomes true. */
  function Download(ledger: Ledger, user: UserId, file: FileName, now: int, fallbackNow: int): (g: Gate)
    ensures FindFirst(ledger, user, file).None? ==> g == Gate(Forbidden, ledger)
    ensures FindFirst(ledger, user, file).Some? ==>
      var i := FindFirst(ledger, user, file).value;
      && (GateExpired(ledger[i], now, fallbackNow) ==> g == Gate(LinkExpired, ledger))
      && (!GateExpired(ledger[i], now, fallbackNow) && ledger[i].downloaded ==> g == Gate(AlreadyDownloaded, ledger))
      && (!GateExpired(ledger[i], now, fallbackNow) && !ledger[i].downloaded ==>
            && g.outcome == Served(UploadFolder + "/" + file)
            && |g.ledger| == |ledger|
            && g.ledger[i] == ledger[i].(downloaded := true)
            && forall j :: 0 <= j < |ledger| && j != i ==> g.ledger[j] == ledger[j])
  {
    match FindFirst(ledger, user, file)
    case None => Gate(Forbidden, ledger)
    case Some(i) =>
      var purchase := ledger[i];
      if GateExpired(purchase, now, fallbackNow) then Gate(LinkExpired, ledger)
      else if purchase.downloaded then Gate(AlreadyDownloaded, ledger)
      else Gate(Served(UploadFolder + "/" + file), ledger[i := purchase.(downloaded := true)])
  }

  /** For the record the gate looks at, its decision is the orders page's
      status: served exactly when the page says "Bereit", refused as expired
      exactly when it says "Abgelaufen", and as downloaded when it says
      "Bereits heruntergeladen". A missing expiry is unexpired on both sides. */
  lemma GateAgreesWithOrders(ledger: Ledger, user: UserId, file: FileName, now: int, fallbackNow: int)
    requires now <= fallbackNow
    requires FindFirst(ledger, user, file).Some?
    ensures var p := ledger[FindFirst(ledger, user, file).value];
      var g := Download(ledger, user, file, now, fallbackNow);
      && (g.outcome.Served? <==> StatusOf(p, now) == Ready)
      && (g.outcome == LinkExpired <==> StatusOf(p, now) == Expired)
      && (g.outcome == AlreadyDownloaded <==> StatusOf(p, now) == Downloaded)
      && (g.outcome.Served? <==> Row(p, now).downloadable)
  {
  }

  /** Two ledgers that agree on who bought which file. */
  predicate SameOwners(a: Ledger, b: Ledger) {
    |a| == |b| && forall i :: 0 <= i < |a| ==> a[i].userId == b[i].userId && a[i].file == b[i].file
  }

  /** Setting flags does not change which record `find_one` picks. */
  lemma {:induction false} FindFirstIgnoresFlags(a: Ledger, b: Ledger, user: UserId, file: FileName)
    requires SameOwners(a, b)
    ensures FindFirst(a, user, file) == FindFirst(b, user, file)
  {
    if a != [] {
      assert SameOwners(a[1..], b[1..]);
      FindFirstIgnoresFlags(a[1..], b[1..], user, file);
    }
  }

  /** Once a download has been served, no later request for the same file is
      served by the gate, whatever purchases, downloads or corrected downloads
      happen in between: the record the gate inspects stays the first match and
      stays flagged. */
  lemma ServedAtMostOnce(ledger: Ledger, user: UserId, file: FileName, now: int, fallbackNow: int,
                         between: seq<LedgerRequest>, later: int, laterFallback: int)
    requires Download(ledger, user, file, now, fallbackNow).outcome.Served?
    ensures var g := Download(ledger, user, file, now, fallbackNow);
      !Download(Run(g.ledger, between), user, file, later, laterFallback).outcome.Served?
  {
    var g := Download(ledger, user, file, now, fallbackNow);
    var i := FindFirst(ledger, user, file).value;
    FindFirstIgnoresFlags(ledger, g.ledger, user, file);
    var after := Run(g.ledger, between);
    RunKeeps(g.ledger, between);
    KeptFindFirst(g.ledger, after, user, file);
  }

  /** Records kept in place and new records behind them do not change which
      record `find_one` picks, once some record matches. */
  lemma KeptFindFirst(a: Ledger, b: Ledger, user: UserId, file: FileName)
    requires Keeps(a, b)
    requires FindFirst(a, user, file).Some?
    ensures FindFirst(b, user, file) == FindFirst(a, user, file)
  {
    var i := FindFirst(a, user, file).value;
    assert Matches(b[i], user, file);
    assert forall j :: 0 <= j < i ==> !Matches(b[j], user, file) by {
      forall j | 0 <= j < i ensures !Matches(b[j], user, file) {
        assert !Matches(a[j], user, file);
      }
    }
  }

  /** Bought at T: a request at T + 8 days is refused as expired. */
  lemma ExpiredScenario(ledger: Ledger, user: UserId, email: string, file: FileName, t: int)
    requires FindFirst(ledger, user, file).None?
    ensures var bought := ledger + [Entitlement(user, email, file, t)];
      Download(bought, user, file, t + 8 * MicrosPerDay, t + 8 * MicrosPerDay) == Gate(LinkExpired, bought)
  {
    var bought := ledger + [Entitlement(user, email, file, t)];
    assert Matches(bought[|ledger|], user, file);
    assert FindFirst(bought, user, file) == Some(|ledger|);
  }

  /** Bought at T: served at T + 1 hour, refused as downloaded at T + 2 hours. */
  lemma OnceScenario(ledger: Ledger, user: UserId, email: string, file: FileName, t: int)
    requires FindFirst(ledger, user, file).None?
    ensures var bought := ledger + [Entitlement(user, email, file, t)];
      var hour := MicrosPerDay / 24;
      var first := Download(bought, user, file, t + hour, t + hour);
      && first.outcome == Served(UploadFolder + "/" + file)
      && Download(first.ledger, user, file, t + 2 * hour, t + 2 * hour) == Gate(AlreadyDownloaded, first.ledger)
  {
    var bought := ledger + [Entitlement(user, email, file, t)];
    var hour := MicrosPerDay / 24;
    assert Matches(bought[|ledger|], user, file);
    assert FindFirst(bought, user, file) == Some(|ledger|);
    var first := Download(bought, user, file, t + hour, t + hour);
    FindFirstIgnoresFlags(bought, first.ledger, user, file);
  }

  // ---- a re-purchased file behind an old record ----

  /** The first matching record whose file can still be fetched. */
  function FindReady(ledger: Ledger, user: UserId, file: FileName, now: int): (r: Option<nat>)
    ensures r.None? <==> forall i :: 0 <= i < |ledger| ==> !(Matches(ledger[i], user, file) && StatusOf(ledger[i], now) == Ready)
    ensures r.Some? ==> r.value < |ledger| && Matches(ledger[r.value], user, file) && StatusOf(ledger[r.value], now) == Ready
  {
    if ledger == [] then None
    else if Matches(ledger[0], user, file) && StatusOf(ledger[0], now) == Ready then Some(0)
    else
      match FindReady(ledger[1..], user, file, now)
      case None => None
      case Some(k) => Some(k + 1)
  }

  /** The gate as the orders page presents it: any of the user's records for
      the file that is ready can be used; with none ready, the first record
      found gives the reason, as before. */
  function DownloadAnyReady(ledger: Ledger, user: UserId, file: FileName, now: int): (g: Gate)
    ensures g.outcome.Served? <==>
      exists i :: 0 <= i < |ledger| && Matches(ledger[i], user, file) && StatusOf(ledger[i], now) == Ready
    ensures g.outcome == Forbidden <==> FindFirst(ledger, user, file).None?
    ensures |g.ledger| == |ledger|
    ensures !g.outcome.Served? ==> g.ledger == ledger
    ensures g.outcome.Served? ==>
      exists i :: (0 <= i < |ledger| && StatusOf(ledger[i], now) == Ready && Matches(ledger[i], user, file)
        && g.ledger == ledger[i := ledger[i].(downloaded := true)])
  {
    match FindReady(ledger, user, file, now)
    case Some(i) =>
      Gate(Served(UploadFolder + "/" + file), ledger[i := ledger[i].(downloaded := true)])
    case None =>
      match FindFirst(ledger, user, file)
      case None => Gate(Forbidden, ledger)
      case Some(i) =>
        if IsExpired(ledger[i], now) then Gate(LinkExpired, ledger) else Gate(AlreadyDownloaded, ledger)
  }

  /** The corrected gate serves a file exactly when the orders page shows one of
      the user's rows for that file as downloadable. */
  lemma AnyReadyAgreesWithOrders(ledger: Ledger, user: UserId, file: FileName, now: int)
    ensures var rows := Orders(ledger, user, now);
      DownloadAnyReady(ledger, user, file, now).outcome.Served? <==>
        exists k :: 0 <= k < |rows| && rows[k].purchase.file == file && rows[k].downloadable
  {
    var rows := Orders(ledger, user, now);
    if DownloadAnyReady(ledger, user, file, now).outcome.Served? {
      ServedShowsRow(ledger, user, file, now);
    }
    if exists k :: 0 <= k < |rows| && rows[k].purchase.file == file && rows[k].downloadable {
      var k :| 0 <= k < |rows| && rows[k].purchase.file == file && rows[k].downloadable;
      RowIsReady(ledger, user, file, now, k);
    }
  }

  lemma ServedShowsRow(ledger: Ledger, user: UserId, file: FileName, now: int)
    requires DownloadAnyReady(ledger, user, file, now).outcome.Served?
    ensures var rows := Orders(ledger, user, now);
      exists k :: 0 <= k < |rows| && rows[k].purchase.file == file && rows[k].downloadable
  {
    var rows := Orders(ledger, user, now);
    var history := UserPurchases(ledger, user);
    var i :| 0 <= i < |ledger| && Matches(ledger[i], user, file) && StatusOf(ledger[i], now) == Ready;
    assert ledger[i] in history;
    var k :| 0 <= k < |history| && history[k] == ledger[i];
    assert rows[k].purchase == ledger[i];
  }

  lemma RowIsReady(ledger: Ledger, user: UserId, file: FileName, now: int, k: int)
    requires var rows := Orders(ledger, user, now);
      0 <= k < |rows| && rows[k].purchase.file == file && rows[k].downloadable
    ensures DownloadAnyReady(ledger, user, file, now).outcome.Served?
  {
    var history := UserPurchases(ledger, user);
    assert history[k] in history;
    var i :| 0 <= i < |ledger| && ledger[i] == history[k];
    assert Matches(ledger[i], user, file) && StatusOf(ledger[i], now) == Ready;
  }

  /** As written, an expired first purchase hides a later one: the orders page
      offers the second record for download, the gate refuses it as expired,
      and the corrected gate serves it. */
  lemma RepurchaseAfterExpiryRefused(user: UserId, email: string, file: FileName, t: int)
    ensures var first := Entitlement(user, email, file, t);
      var second := Entitlement(user, email, file, t + 8 * MicrosPerDay);
      var ledger := [first, second];
      var now := t + 8 * MicrosPerDay + MicrosPerDay / 24;
      && Orders(ledger, user, now)[1].downloadable
      && Download(ledger, user, file, now, now).outcome == LinkExpired
      && DownloadAnyReady(ledger, user, file, now).outcome.Served?
  {
    var first := Entitlement(user, email, file, t);
    var second := Entitlement(user, email, file, t + 8 * MicrosPerDay);
    var ledger := [first, second];
    var now := t + 8 * MicrosPerDay + MicrosPerDay / 24;
    assert ledger[1..] == [second] && ledger[1..][1..] == [];
    assert UserPurchases(ledger, user) == ledger;
    assert FindFirst(ledger, user, file) == Some(0);
    assert Matches(ledger[1], user, file) && StatusOf(ledger[1], now) == Ready;
  }

  // ---- what any sequence of requests does to existing records ----

  /** A request that touches the purchases collection. */
  datatype LedgerRequest =
    | SuccessRequest(catalog: Catalog, slot: Option<Cart>, user: UserId, email: string, now: int)
    | DownloadRequest(user: UserId, file: FileName, now: int, fallbackNow: int)
    | CorrectedDownloadRequest(user: UserId, file: FileName, now: int)

  function Apply(ledger: Ledger, req: LedgerRequest): Ledger {
    match req
    case SuccessRequest(catalog, slot, user, email, now) => Success(catalog, ledger, slot, user, email, now).ledger
    case DownloadRequest(user, file, now, fallbackNow) => Download(ledger, user, file, now, fallbackNow).ledger
    case CorrectedDownloadRequest(user, file, now) => DownloadAnyReady(ledger, user, file, now).ledger
  }

  function Run(ledger: Ledger, reqs: seq<LedgerRequest>): Ledger
    decreases |reqs|
  {
    if reqs == [] then ledger else Run(Apply(ledger, reqs[0]), reqs[1..])
  }

  /** `b` keeps every record of `a`: same owner, file, creation time and expiry,
      and a flag that may have gone from false to true but never back. */
  predicate Keeps(a: Ledger, b: Ledger) {
    && |a| <= |b|
    && forall i :: 0 <= i < |a| ==>
      && b[i].userId == a[i].userId && b[i].email == a[i].email && b[i].file == a[i].file
      && b[i].timestamp == a[i].timestamp && b[i].expiresAt == a[i].expiresAt
      && (a[i].downloaded ==> b[i].downloaded)
  }

  lemma ApplyKeeps(ledger: Ledger, req: LedgerRequest)
    ensures Keeps(ledger, Apply(ledger, req))
  {
    match req
    case SuccessRequest(catalog, slot, user, email, now) =>
      var r := Success(catalog, ledger, slot, user, email, now).ledger;
      assert forall i :: 0 <= i < |ledger| ==> r[i] == r[..|ledger|][i];
    case DownloadRequest(user, file, now, fallbackNow) =>
    case CorrectedDownloadRequest(user, file, now) =>
  }

  /** No sequence of requests resets a downloaded flag, extends or shortens an
      expiry, or rewrites or removes an existing record. */
  lemma {:induction false} RunKeeps(ledger: Ledger, reqs: seq<LedgerRequest>)
    ensures Keeps(ledger, Run(ledger, reqs))
    decreases |reqs|
  {
    if reqs != [] {
      var next := Apply(ledger, reqs[0]);
      ApplyKeeps(ledger, reqs[0]);
      RunKeeps(next, reqs[1..]);
    }
  }
}

=== FILE: outcomes.dfy ===
/** Failure-carrying values shared by every module of the storefront model:
    `Option` for a lookup that may find nothing, `Result` for a request that
    either produces a value or is refused with a typed reason. */
module Outcomes {

  datatype Option<+T> = None | Some(value: T) {

    /** The wrapped value, or `default` when there is none (Python's `d.get(k, default)`). */
    function GetOr(default: T): T {
      match this
      case Some(v) => v
      case None => default
    }
  }

  datatype Result<+T, +E> = Ok(value: T) | Err(error: E)
}

=== FILE: pricing.dfy ===
/** Integer pricing (app.py:282-341, 396-398). Prices are euro cents. The cart
    page sums the undiscounted price of every cart entry whose product still
    exists; checkout first tallies the cart into (id, quantity) pairs in order of
    first appearance, then makes one line item per id whose product exists, at
    the discounted unit price. */
module Pricing {
  import opened Store
  import opened Cart

  // ---- unit prices ----

  /** Python's `int(a / 100)`: true division, then truncation toward zero.
      Dafny's `/` is Euclidean, so a negative numerator is handled apart. */
  function TruncDiv100(a: int): int {
    if a >= 0 then a / 100 else -((-a) / 100)
  }

  /** `int(price * (100 - d) / 100)`: the unit price after a d% discount. For a
      discount in [0, 100] it is the floor of the exact discounted price, so it
      never exceeds the original price and never goes below zero. */
  function DiscountedUnit(price: int, d: int): (u: int)
    ensures d == 0 ==> u == price
    ensures 0 <= price && 0 <= d <= 100 ==> u * 100 <= price * (100 - d) < u * 100 + 100
    ensures 0 <= price && 0 <= d <= 100 ==> 0 <= u <= price
  {
    if 0 <= price && 0 <= d <= 100 then
      DiscountedBounds(price, d);
      TruncDiv100(price * (100 - d))
    else
      TruncDiv100(price * (100 - d))
  }

  lemma DiscountedBounds(price: int, d: int)
    requires 0 <= price && 0 <= d <= 100
    ensures 0 <= price * (100 - d) <= price * 100
  {
    assert price * (100 - d) == price * 100 - price * d;
    assert 0 <= price * d <= price * 100;
  }

  /** The cart checkout's unit price: `if discount:` applies the formula to any
      non-zero discount (app.py:330-332). */
  function CartUnit(price: int, d: int): int {
    if d != 0 then DiscountedUnit(price, d) else price
  }

  /** The single-product checkout's unit price: `if discount > 0:` (app.py:396-398). */
  function SingleUnit(price: int, d: int): int {
    if d > 0 then DiscountedUnit(price, d) else price
  }

  /** The two checkout routes branch on the discount differently, yet charge the same
      unit price for every discount that is not negative; a negative stored
      discount would be a surcharge in the cart and ignored for one product. */
  lemma UnitBranchesAgree(price: int, d: int)
    ensures 0 <= d ==> CartUnit(price, d) == SingleUnit(price, d) == DiscountedUnit(price, d)
    ensures d < 0 ==> CartUnit(price, d) == DiscountedUnit(price, d) && SingleUnit(price, d) == price
  {
  }

  // ---- the `counted` dict of checkout_cart ----

  /** One entry of the insertion-ordered dict `counted`. */
  datatype Tallied = Tallied(id: ProductId, qty: nat)

  /** The keys of `counted`, in insertion order. */
  function Ids(t: seq<Tallied>): (ids: seq<ProductId>)
    ensures |ids| == |t|
    ensures forall i :: 0 <= i < |t| ==> ids[i] == t[i].id
  {
    if t == [] then [] else [t[0].id] + Ids(t[1..])
  }

  predicate NoDup(s: seq<ProductId>) {
    forall i, j :: 0 <= i < j < |s| ==> s[i] != s[j]
  }

  /** `counted.get(q, 0)`. */
  function QtyOf(t: seq<Tallied>, q: ProductId): nat {
    if t == [] then 0
    else if t[0].id == q then t[0].qty
    else QtyOf(t[1..], q)
  }

  /** `counted[p] = counted.get(p, 0) + 1` on the insertion-ordered dict. */
  function Bump(t: seq<Tallied>, p: ProductId): seq<Tallied> {
    if t == [] then [Tallied(p, 1)]
    else if t[0].id == p then [t[0].(qty := t[0].qty + 1)] + t[1..]
    else [t[0]] + Bump(t[1..], p)
  }

  /** A new id is inserted last with quantity 1; a known id keeps its place and
      gains one; every other quantity is untouched. */
  lemma {:induction false} BumpCounts(t: seq<Tallied>, p: ProductId)
    ensures Ids(Bump(t, p)) == if p in Ids(t) then Ids(t) else Ids(t) + [p]
    ensures forall q :: QtyOf(Bump(t, p), q) == QtyOf(t, q) + (if q == p then 1 else 0)
  {
    var r := Bump(t, p);
    if t == [] {
    } else if t[0].id == p {
      assert r[1..] == t[1..];
      assert Ids(t) == [t[0].id] + Ids(t[1..]);
    } else {
      BumpCounts(t[1..], p);
      assert r[1..] == Bump(t[1..], p);
      assert Ids(t) == [t[0].id] + Ids(t[1..]);
    }
  }

  /** The loop `for pid in cart_ids: counted[pid] = counted.get(pid, 0) + 1`:
      every id of the cart appears once, with its multiplicity as quantity. */
  function Tally(c: Cart): (t: seq<Tallied>)
    ensures NoDup(Ids(t))
    ensures forall q :: q in Ids(t) <==> q in c
    ensures forall q :: QtyOf(t, q) == Count(c, q)
  {
    if c == [] then []
    else
      var prefix := c[..|c| - 1];
      assert c == prefix + [c[|c| - 1]];
      BumpExtendsTally(Tally(prefix), prefix, c[|c| - 1]);
      Bump(Tally(prefix), c[|c| - 1])
  }

  /** Bumping an id extends a tally of a cart to a tally of the cart with that
      id appended. */
  lemma BumpExtendsTally(t: seq<Tallied>, c: Cart, p: ProductId)
    requires NoDup(Ids(t))
    requires forall q :: q in Ids(t) <==> q in c
    requires forall q :: QtyOf(t, q) == Count(c, q)
    ensures NoDup(Ids(Bump(t, p)))
    ensures forall q :: q in Ids(Bump(t, p)) <==> q in c + [p]
    ensures forall q :: QtyOf(Bump(t, p), q) == Count(c + [p], q)
  {
    BumpCounts(t, p);
    BumpKeepsIdsDistinct(t, p);
    assert multiset(c + [p]) == multiset(c) + multiset{p};
  }

  lemma BumpKeepsIdsDistinct(t: seq<Tallied>, p: ProductId)
    requires NoDup(Ids(t))
    ensures NoDup(Ids(Bump(t, p)))
  {
    BumpCounts(t, p);
    var ids := Ids(t);
    if p !in ids {
      assert forall i :: 0 <= i < |ids| ==> (ids + [p])[i] == ids[i];
    }
  }

  /** `ids` lists ids of `c` in the order in which they first appear in `c`. */
  predicate FirstAppearanceOrder(c: Cart, ids: seq<ProductId>) {
    forall i, j :: 0 <= i < j < |ids| ==>
      ids[i] in c && ids[j] in c && FirstIndex(c, ids[i]) < FirstIndex(c, ids[j])
  }

  /** Python dicts keep insertion order, so the keys of `counted` come out in
      the order in which their ids first appear in the cart. */
  lemma {:induction false} TallyFollowsFirstAppearance(c: Cart)
    ensures FirstAppearanceOrder(c, Ids(Tally(c)))
  {
    if c == [] {
      assert Ids(Tally(c)) == [];
    } else {
      var prefix, x := c[..|c| - 1], c[|c| - 1];
      assert c == prefix + [x];
      TallyFollowsFirstAppearance(prefix);
      var before := Ids(Tally(prefix));
      BumpCounts(Tally(prefix), x);
      assert Ids(Tally(c)) == if x in before then before else before + [x];
      OrderSurvivesAppend(prefix, x, before);
    }
  }

  /** Appending an id to the cart keeps the order of the ids already seen, and
      a newcomer comes after all of them. */
  lemma OrderSurvivesAppend(prefix: Cart, x: ProductId, before: seq<ProductId>)
    requires FirstAppearanceOrder(prefix, before)
    requires forall q :: q in before <==> q in prefix
    ensures FirstAppearanceOrder(prefix + [x], before)
    ensures x !in before ==> FirstAppearanceOrder(prefix + [x], before + [x])
  {
    var c := prefix + [x];
    forall q | q in prefix
      ensures q in c && FirstIndex(c, q) == FirstIndex(prefix, q)
    {
      var k := FirstIndex(prefix, q);
      assert c[..k] == prefix[..k];
      FirstIndexUnique(c, q, k);
    }
    if x !in before {
      assert c[..|prefix|] == prefix;
      FirstIndexUnique(c, x, |prefix|);
      var ids := before + [x];
      forall i, j | 0 <= i < j < |ids|
        ensures ids[i] in c && ids[j] in c && FirstIndex(c, ids[i]) < FirstIndex(c, ids[j])
      {
        assert before[i] in before;
        if j < |before| {
          assert ids[j] == before[j];
        }
      }
    }
  }

  /** The first index is the only index holding `p` with no `p` before it. */
  lemma FirstIndexUnique(c: Cart, p: ProductId, i: nat)
    requires i < |c| && c[i] == p && p !in c[..i]
    ensures FirstIndex(c, p) == i
  {
  }

  // ---- line items ----

  /** A Stripe `line_items` entry: product name, unit amount in cents, quantity.
      The id is kept so that the model can say which product a line is for. */
  datatype LineItem = LineItem(id: ProductId, name: string, unitAmount: int, quantity: nat)

  /** The products the line items are for, in line order: the projection `Ids`
      makes of a tally, made of line items, so that the proofs about both
      unfold the same way. */
  function LineIds(lines: seq<LineItem>): (ids: seq<ProductId>)
    ensures |ids| == |lines|
    ensures forall i :: 0 <= i < |lines| ==> ids[i] == lines[i].id
  {
    if lines == [] then [] else [lines[0].id] + LineIds(lines[1..])
  }

  /** The second loop of checkout_cart (app.py:327-341): one line per tallied id
      whose product still exists, in tally order; missing products are skipped. */
  function Lines(catalog: Catalog, t: seq<Tallied>, d: int): seq<LineItem> {
    if t == [] then []
    else
      var rest := Lines(catalog, t[1..], d);
      if t[0].id in catalog then
        var p := catalog[t[0].id];
        [LineItem(t[0].id, p.title, CartUnit(p.price, d), t[0].qty)] + rest
      else
        rest
  }

  /** Every line is for a tallied id whose product exists, named after it and
      priced at the cart's unit price, and every such id gets a line. */
  lemma {:induction false} LinesPriced(catalog: Catalog, t: seq<Tallied>, d: int)
    ensures var r := Lines(catalog, t, d);
      && (forall i :: 0 <= i < |r| ==>
        && r[i].id in catalog
        && r[i].name == catalog[r[i].id].title
        && r[i].unitAmount == CartUnit(catalog[r[i].id].price, d))
      && (forall q :: q in LineIds(r) <==> q in Ids(t) && q in catalog)
  {
    if t != [] {
      var rest := Lines(catalog, t[1..], d);
      LinesPriced(catalog, t[1..], d);
      assert Ids(t) == [t[0].id] + Ids(t[1..]);
      if t[0].id in catalog {
        var r := Lines(catalog, t, d);
        assert r[1..] == rest;
        assert LineIds(r) == [t[0].id] + LineIds(rest);
      }
    }
  }

  /** On a tally without repeated ids, no id gets two lines and each line
      carries that id's tallied quantity. */
  lemma {:induction false} LinesQuantities(catalog: Catalog, t: seq<Tallied>, d: int)
    requires NoDup(Ids(t))
    ensures var r := Lines(catalog, t, d);
      && NoDup(LineIds(r))
      && forall i :: 0 <= i < |r| ==> r[i].quantity == QtyOf(t, r[i].id)
  {
    if t != [] {
      var rest := Lines(catalog, t[1..], d);
      assert Ids(t) == [t[0].id] + Ids(t[1..]);
      assert NoDup(Ids(t[1..])) && t[0].id !in Ids(t[1..]);
      LinesQuantities(catalog, t[1..], d);
      LinesPriced(catalog, t[1..], d);
      if t[0].id in catalog {
        var r := Lines(catalog, t, d);
        assert r[1..] == rest;
        assert LineIds(r) == [t[0].id] + LineIds(rest);
      }
    }
  }

  /** `total += unit_price * qty` over the line items. */
  function LinesTotal(lines: seq<LineItem>): int {
    if lines == [] then 0
    else lines[0].unitAmount * lines[0].quantity + LinesTotal(lines[1..])
  }

  /** The line items checkout_cart sends to the payment provider. */
  function CheckoutLines(catalog: Catalog, c: Cart, d: int): seq<LineItem> {
    Lines(catalog, Tally(c), d)
  }

  /** Each line item is for a product of the cart that still exists, at the
      cart's discounted unit price, with that product's multiplicity in the cart
      as quantity; no product gets two lines and no existing product is missed. */
  lemma CheckoutLinesDescribeCart(catalog: Catalog, c: Cart, d: int)
    ensures var lines := CheckoutLines(catalog, c, d);
      && NoDup(LineIds(lines))
      && (forall p :: p in LineIds(lines) <==> p in c && p in catalog)
      && forall i :: 0 <= i < |lines| ==>
        && lines[i].id in catalog
        && lines[i].unitAmount == CartUnit(catalog[lines[i].id].price, d)
        && lines[i].quantity == Count(c, lines[i].id)
  {
    LinesPriced(catalog, Tally(c), d);
    LinesQuantities(catalog, Tally(c), d);
  }

  // ---- totals ----

  /** Reference total: the discounted unit price of every cart entry whose
      product exists, one entry at a time, without any grouping. */
  function EntrySum(catalog: Catalog, c: Cart, d: int): int {
    if c == [] then 0
    else
      var p := c[|c| - 1];
      EntrySum(catalog, c[..|c| - 1], d) + (if p in catalog then CartUnit(catalog[p].price, d) else 0)
  }

  /** The cart page's running `total` (app.py:289-297): the undiscounted price of
      every entry whose product exists. */
  function PriceSum(catalog: Catalog, c: Cart): int {
    if c == [] then 0
    else
      var p := c[|c| - 1];
      PriceSum(catalog, c[..|c| - 1]) + (if p in catalog then catalog[p].price else 0)
  }

  /** The line total of a tally is its first entry's share plus the rest's. */
  lemma LinesTotalUnfold(catalog: Catalog, t: seq<Tallied>, d: int)
    requires t != []
    ensures LinesTotal(Lines(catalog, t, d))
         == (if t[0].id in catalog then CartUnit(catalog[t[0].id].price, d) * t[0].qty else 0)
          + LinesTotal(Lines(catalog, t[1..], d))
  {
    var rest := Lines(catalog, t[1..], d);
    if t[0].id in catalog {
      var r := Lines(catalog, t, d);
      assert r[1..] == rest;
    }
  }

  /** One more unit at price `u` adds `u`. */
  lemma MulSucc(u: int, q: nat)
    ensures u * (q + 1) == u * q + u
  {
  }

  /** `BumpAddsOneUnit` for an id that is already the tally's first entry. */
  lemma BumpKnownHead(catalog: Catalog, t: seq<Tallied>, p: ProductId, d: int)
    requires t != [] && t[0].id == p
    ensures LinesTotal(Lines(catalog, Bump(t, p), d))
         == LinesTotal(Lines(catalog, t, d)) + (if p in catalog then CartUnit(catalog[p].price, d) else 0)
  {
    var r := [t[0].(qty := t[0].qty + 1)] + t[1..];
    assert Bump(t, p) == r;
    assert r[1..] == t[1..];
    LinesTotalUnfold(catalog, t, d);
    LinesTotalUnfold(catalog, r, d);
    var rest := LinesTotal(Lines(catalog, t[1..], d));
    if p in catalog {
      var u := CartUnit(catalog[p].price, d);
      assert LinesTotal(Lines(catalog, r, d)) == u * (t[0].qty + 1) + rest;
      assert LinesTotal(Lines(catalog, t, d)) == u * t[0].qty + rest;
      MulSucc(u, t[0].qty);
      assert LinesTotal(Lines(catalog, Bump(t, p), d)) == LinesTotal(Lines(catalog, r, d));
      assert LinesTotal(Lines(catalog, Bump(t, p), d)) == LinesTotal(Lines(catalog, t, d)) + u;
    } else {
      assert LinesTotal(Lines(catalog, r, d)) == rest;
      assert LinesTotal(Lines(catalog, t, d)) == rest;
      assert LinesTotal(Lines(catalog, Bump(t, p), d)) == LinesTotal(Lines(catalog, t, d));
    }
  }

  /** Adding one entry to the tally adds that entry's unit price to the line total. */
  lemma {:induction false} BumpAddsOneUnit(catalog: Catalog, t: seq<Tallied>, p: ProductId, d: int)
    ensures LinesTotal(Lines(catalog, Bump(t, p), d))
         == LinesTotal(Lines(catalog, t, d)) + (if p in catalog then CartUnit(catalog[p].price, d) else 0)
  {
    var r := Bump(t, p);
    if t == [] {
      assert r == [Tallied(p, 1)];
      LinesTotalUnfold(catalog, r, d);
      assert r[1..] == [];
    } else {
      LinesTotalUnfold(catalog, t, d);
      LinesTotalUnfold(catalog, r, d);
      if t[0].id == p {
        BumpKnownHead(catalog, t, p, d);
      } else {
        assert r[0] == t[0] && r[1..] == Bump(t[1..], p);
        BumpAddsOneUnit(catalog, t[1..], p, d);
      }
    }
  }

  /** Grouping does not change the price: the checkout total over line items
      equals the per-entry sum, so each product is charged its discounted unit
      price once per occurrence in the cart. */
  lemma {:induction false} CheckoutTotalIsEntrySum(catalog: Catalog, c: Cart, d: int)
    ensures LinesTotal(CheckoutLines(catalog, c, d)) == EntrySum(catalog, c, d)
    decreases |c|
  {
    if c != [] {
      var prefix := c[..|c| - 1];
      CheckoutTotalIsEntrySum(catalog, prefix, d);
      BumpAddsOneUnit(catalog, Tally(prefix), c[|c| - 1], d);
    }
  }

  /** Without a coupon the per-entry sum is the cart page's total. */
  lemma {:induction false} EntrySumWithoutDiscount(catalog: Catalog, c: Cart)
    ensures EntrySum(catalog, c, 0) == PriceSum(catalog, c)
    decreases |c|
  {
    if c != [] {
      EntrySumWithoutDiscount(catalog, c[..|c| - 1]);
    }
  }

  predicate NonNegativePrices(catalog: Catalog) {
    forall p :: p in catalog ==> catalog[p].price >= 0
  }

  /** A discount in [0, 100] never makes the checkout cost more than the cart
      page shows, nor less than zero. */
  lemma {:induction false} DiscountBoundsTotal(catalog: Catalog, c: Cart, d: int)
    requires NonNegativePrices(catalog) && 0 <= d <= 100
    ensures 0 <= EntrySum(catalog, c, d) <= PriceSum(catalog, c)
    decreases |c|
  {
    if c != [] {
      DiscountBoundsTotal(catalog, c[..|c| - 1], d);
    }
  }

  // ---- the cart page ----

  /** A row of the cart page: the product found for the id and its quantity. */
  datatype CartRow = CartRow(id: ProductId, product: Product, quantity: nat)

  function RowIndex(rows: seq<CartRow>, p: ProductId): (j: int)
    ensures -1 <= j < |rows|
    ensures 0 <= j ==> rows[j].id == p
    ensures j < 0 ==> forall i :: 0 <= i < |rows| ==> rows[i].id != p
  {
    if rows == [] then -1
    else if rows[|rows| - 1].id == p then |rows| - 1
    else RowIndex(rows[..|rows| - 1], p)
  }

  /** What the rows built from the cart prefix `seen` say: one row per distinct
      id of `seen` whose product exists, with that product and its multiplicity. */
  predicate RowsDescribe(catalog: Catalog, seen: Cart, rows: seq<CartRow>) {
    && RowsAccurate(catalog, seen, rows)
    && (forall i, j :: 0 <= i < j < |rows| ==> rows[i].id != rows[j].id)
    && RowsCover(catalog, seen, rows)
  }

  predicate RowsAccurate(catalog: Catalog, seen: Cart, rows: seq<CartRow>) {
    forall i :: 0 <= i < |rows| ==>
      && rows[i].id in seen
      && rows[i].id in catalog
      && rows[i].product == catalog[rows[i].id]
      && rows[i].quantity == Count(seen, rows[i].id)
  }

  predicate RowsCover(catalog: Catalog, seen: Cart, rows: seq<CartRow>) {
    forall p :: p in seen && p in catalog ==> exists i :: 0 <= i < |rows| && rows[i].id == p
  }

  /** One pass of the loop over `cart_raw`: a known id gets one more, a new id
      whose product exists gets a row of its own, anything else is skipped. */
  function AddRow(catalog: Catalog, rows: seq<CartRow>, pid: ProductId): (next: seq<CartRow>)
    ensures |rows| <= |next|
    ensures forall i :: 0 <= i < |rows| ==> next[i].id == rows[i].id
  {
    var j := RowIndex(rows, pid);
    if j >= 0 then rows[j := rows[j].(quantity := rows[j].quantity + 1)]
    else if pid in catalog then rows + [CartRow(pid, catalog[pid], 1)]
    else rows
  }

  lemma AddRowKeepsDescription(catalog: Catalog, seen: Cart, rows: seq<CartRow>, pid: ProductId)
    requires RowsDescribe(catalog, seen, rows)
    ensures RowsDescribe(catalog, seen + [pid], AddRow(catalog, rows, pid))
    ensures RowIndex(rows, pid) >= 0 ==> rows[RowIndex(rows, pid)].product == catalog[pid]
  {
    AddRowAccurate(catalog, seen, rows, pid);
    AddRowDistinct(catalog, rows, pid);
    AddRowCovers(catalog, seen, rows, pid);
  }

  lemma AddRowDistinct(catalog: Catalog, rows: seq<CartRow>, pid: ProductId)
    requires forall i, j :: 0 <= i < j < |rows| ==> rows[i].id != rows[j].id
    ensures var next := AddRow(catalog, rows, pid);
      forall i, j :: 0 <= i < j < |next| ==> next[i].id != next[j].id
  {
  }

  lemma AddRowAccurate(catalog: Catalog, seen: Cart, rows: seq<CartRow>, pid: ProductId)
    requires RowsDescribe(catalog, seen, rows)
    ensures RowsAccurate(catalog, seen + [pid], AddRow(catalog, rows, pid))
  {
    assert multiset(seen + [pid]) == multiset(seen) + multiset{pid};
  }

  lemma AddRowCovers(catalog: Catalog, seen: Cart, rows: seq<CartRow>, pid: ProductId)
    requires RowsCover(catalog, seen, rows)
    ensures RowsCover(catalog, seen + [pid], AddRow(catalog, rows, pid))
  {
    var next := AddRow(catalog, rows, pid);
    forall p | p in seen + [pid] && p in catalog
      ensures exists i :: 0 <= i < |next| && next[i].id == p
    {
      if p == pid {
        var j := RowIndex(rows, pid);
        if j >= 0 {
          assert next[j].id == p;
        } else {
          assert next[|rows|].id == p;
        }
      } else {
        assert p in seen;
        var i :| 0 <= i < |rows| && rows[i].id == p;
        assert next[i].id == p;
      }
    }
  }

  /** The rows `cart` has built after the entries of `seen`. */
  function RowsOf(catalog: Catalog, seen: Cart): seq<CartRow> {
    if seen == [] then []
    else AddRow(catalog, RowsOf(catalog, seen[..|seen| - 1]), seen[|seen| - 1])
  }

  lemma {:induction false} RowsOfDescribe(catalog: Catalog, seen: Cart)
    ensures RowsDescribe(catalog, seen, RowsOf(catalog, seen))
  {
    if seen != [] {
      var prefix := seen[..|seen| - 1];
      RowsOfDescribe(catalog, prefix);
      AddRowKeepsDescription(catalog, prefix, RowsOf(catalog, prefix), seen[|seen| - 1]);
      assert seen == prefix + [seen[|seen| - 1]];
    }
  }

  /** A row already built for an id holds that id's product. */
  lemma KnownRowProduct(catalog: Catalog, seen: Cart, pid: ProductId)
    ensures var rows := RowsOf(catalog, seen);
      RowIndex(rows, pid) >= 0 ==> pid in catalog && rows[RowIndex(rows, pid)].product == catalog[pid]
  {
    RowsOfDescribe(catalog, seen);
  }

  lemma CartStep(catalog: Catalog, c: Cart, k: nat)
    requires k < |c|
    ensures RowsOf(catalog, c[..k + 1]) == AddRow(catalog, RowsOf(catalog, c[..k]), c[k])
    ensures PriceSum(catalog, c[..k + 1]) == PriceSum(catalog, c[..k]) + (if c[k] in catalog then catalog[c[k]].price else 0)
  {
    assert c[..k + 1][..k] == c[..k];
  }

  /** The rows and total that `cart` builds for the whole cart describe it. */
  lemma CartPageDescribesCart(catalog: Catalog, c: Cart, rows: seq<CartRow>, total: int)
    requires RowsDescribe(catalog, c, rows) && total == PriceSum(catalog, c)
    ensures total == LinesTotal(CheckoutLines(catalog, c, 0))
    ensures forall i :: 0 <= i < |rows| ==>
      && rows[i].id in c
      && rows[i].id in catalog
      && rows[i].product == catalog[rows[i].id]
      && rows[i].quantity == Count(c, rows[i].id)
    ensures forall i, j :: 0 <= i < j < |rows| ==> rows[i].id != rows[j].id
    ensures forall p :: p in c && p in catalog ==> exists i :: 0 <= i < |rows| && rows[i].id == p
  {
    EntrySumWithoutDiscount(catalog, c);
    CheckoutTotalIsEntrySum(catalog, c, 0);
  }

  /** The `cart` view (app.py:282-300), loop for loop: one row per distinct id
      whose product exists, each with its multiplicity,
      and the undiscounted total, which is what checkout charges without a coupon. */
  method CartPage(catalog: Catalog, c: Cart) returns (rows: seq<CartRow>, total: int)
    ensures total == PriceSum(catalog, c)
    ensures total == LinesTotal(CheckoutLines(catalog, c, 0))
    ensures forall i :: 0 <= i < |rows| ==>
      && rows[i].id in c
      && rows[i].id in catalog
      && rows[i].product == catalog[rows[i].id]
      && rows[i].quantity == Count(c, rows[i].id)
    ensures forall i, j :: 0 <= i < j < |rows| ==> rows[i].id != rows[j].id
    ensures forall p :: p in c && p in catalog ==> exists i :: 0 <= i < |rows| && rows[i].id == p
  {
    rows := [];
    total := 0;
    var k := 0;
    while k < |c|
      invariant 0 <= k <= |c|
      invariant rows == RowsOf(catalog, c[..k])
      invariant total == PriceSum(catalog, c[..k])
    {
      var pid := c[k];
      CartStep(catalog, c, k);
      KnownRowProduct(catalog, c[..k], pid);
      var j := RowIndex(rows, pid);
      if j >= 0 {
        total := total + rows[j].product.price;
      } else if pid in catalog {
        total := total + catalog[pid].price;
      }
      rows := AddRow(catalog, rows, pid);
      k := k + 1;
    }
    assert c[..k] == c;
    RowsOfDescribe(catalog, c);
    CartPageDescribesCart(catalog, c, rows, total);
  }
}

=== FILE: store.dfy ===
/** The catalog collection as the purchase logic sees it: products keyed by id.
    A product that has been deleted is simply absent from the map. */
module Store {

  type ProductId = string
  type UserId = string
  type FileName = string

  /** A catalog entry. `price` is an integer amount of euro cents; nothing in
      the purchase logic checks its sign, so it is an `int`. */
  datatype Product = Product(title: string, price: int, file: FileName)

  type Catalog = map<ProductId, Product>
}
